=== FILE: README.md ===
# atomico: the reconciler and the hooks, in Dafny

This project models two parts of the atomico web-component library and proves
what they promise.

- **The virtual-DOM reconciler** (`src/render.js`).
  - `h` builds a vnode.
  - `flat` normalises its children: nested arrays are flattened, invalid
    children become `""`, keys go into a side index, and a `style` element's
    children are concatenated into one string.
  - `diff` brings one host node in line with a vnode.
  - `diffChildren` does the same for a parent's child list, by key or by
    position.
  - `diffProps`, `setProperty`, `setEvent` and `setPropertyStyle` bring the
    node's attributes, live properties, style and event listeners in line with
    the vnode's props.
- **The built-in hooks** (`src/hooks/hooks.js`).
  - `useState`, `useEffect`, `useMemo`, `useReducer`, `useRef` and
    `useCallback` are small state machines. Each owns one positional slot.
  - A minimal hook controller drives them. It dispatches the phases MOUNT=1,
    MOUNTED=2, UPDATE=3, UPDATED=4 and UNMOUNT=5 in slot order.

How the model is laid out:

- The host tree is modelled as values (`Dom.HostNode`). A node's identity is
  its `id`, so "the same node" means "a node with that id".
- JavaScript object identity (of a vnode, a props object or a children array)
  is an explicit `ref` number. Ref 0 is the shared `EMPTY_PROPS` /
  `EMPTY_CHILDREN`.
- Fresh node ids, fresh handler registries and the `ref.current` boxes are
  threaded through a `Reconcile.World` value.
- The live properties a freshly created element exposes (`key in node`) come
  from a `Reconcile.Schema`.
- On the hooks side, `Hooks.Controller` is a class. Its fields are:
  - the slots;
  - the `mounted` flag;
  - a log of every call of a user function, every re-render request and
    every phase a probe hook receives.

  User functions are applied through the controller's `apply` function.

Files and modules:

| file | module | contents |
|---|---|---|
| wrappers.dfy | Wrappers | `Option` |
| dom.dfy | Dom | values, vnodes and host nodes; JS truthiness and string conversion |
| vdom.dfy | VDom | `flat` and `h` |
| patch.dfy | Patch | `setEvent`, `setPropertyStyle`, `setProperty`, `diffProps` |
| children.dfy | ChildList | DOM child-list operations; the first loop of `diffChildren` |
| reconcile.dfy | Reconcile | `diff` and `diffChildren` |
| hooks.dfy | Hooks | hook slots, their phase callbacks, the controller |
| hook_laws.dfy | HookLaws | what each hook promises; the phase-order scenario |

## Model

| member | source | states |
|---|---|---|
| VDom.Flat | src/render.js:352-381 | `flat(children, sanitize)` returns exactly `Flatten`: the leaves of the nested arrays, in order, each mapped to itself or `""`, or in sanitize mode one concatenated string; keyed leaves give the key set |
| VDom.FlatInto | src/render.js:352-381 | the recursive call appends the leaves of a nested array to the accumulator and keeps the sanitize accumulator one string long |
| VDom.PushLeaf | src/render.js:360-377 | a non-array child registers its key when it has one, then is pushed blanked or, in sanitize mode, appended to the single text entry |
| VDom.FlattenRenderable | src/render.js:365-378 | every leaf contributes exactly one entry and every entry is a string, number or vnode |
| VDom.FlattenOrder | src/render.js:352-359 | flattening keeps left-to-right order: the entries of `a + b` are the entries of `a` then those of `b` |
| VDom.FlattenSanitizeConcat | src/render.js:371-375 | in sanitize mode the single entry of `a + b` is the concatenation of the entries of `a` and `b` |
| VDom.SanitizeDropsVNodes | src/render.js:368-375 | in sanitize mode a vnode child adds nothing to the text |
| VDom.KeyRegistered | src/render.js:360-364 | a key is in the index if and only if some truthy leaf carries it as a non-null key; duplicates collapse |
| VDom.AppendedTwice | src/render.js:352-381 | appending leaves in two steps equals appending them at once |
| VDom.LeavesAppend | src/render.js:355-359 | the leaves of `a + b` are the leaves of `a` followed by those of `b` |
| VDom.ConcatTextAppend | src/render.js:373-374 | the concatenated text of `a + b` is the text of `a` followed by that of `b` |
| VDom.H | src/render.js:44-62 | the vnode has the given type and props (or `EMPTY_PROPS`), `key = props.key` and `shadow = props.shadowDom`; its children are exactly what `flat` makes of `props.children` or the rest arguments (sanitized for `style`), with `flat`'s key index, and the shared empty children exactly when that list is empty |
| VDom.HStyleText | src/render.js:47-51 | a `style` vnode has no children when there are no leaves, and otherwise one text child, the concatenation of its leaves; it never has a vnode child |
| VDom.HKeyed | src/render.js:47 | the key index of a vnode built by `h` holds a key if and only if a truthy leaf of its children carries it as a non-null key |
| VDom.HKeysDeclared | src/render.js:47 | outside `style`, when only vnode children carry keys, every key in the index is the key of one of the vnode's children |
| VDom.HPrefersPropsChildren | src/render.js:47 | a truthy `props.children` wins over the rest arguments |
| VDom.HEmptyShared | src/render.js:49-51 | an empty flattened list is replaced by the shared `EMPTY_CHILDREN` |
| VDom.HChildren | src/render.js:47-51 | outside `style`, the children are the blanked leaves of `props.children` or the rest arguments |
| Patch.SetEvent | src/render.js:307-332 | the event type is the key minus `on`/`on-`; a truthy handler is stored and a listener added only if the type had none; a falsy one deletes the entry and removes the listener; no other entry changes; the registry invariant (listened iff `handlers[type]` set) is kept |
| Patch.EventType | src/render.js:309 | the key is `on` or `on-` followed by the event type |
| Patch.SetPropertyStyle | src/render.js:334-345 | a nullish value removes the style key, any other value sets it; no other key changes |
| Patch.StyleAssignedAt | src/render.js:273-278 | after the second style loop, a key of the next style object whose value differs from the previous object's holds the new value (or is removed when nullish); every other key is untouched |
| Patch.DropStyleKeys | src/render.js:263-271 | the first style loop removes exactly the keys of the previous style object missing from the next one |
| Patch.AssignStyleKeys | src/render.js:273-278 | the second style loop computes `StyleAssigned` |
| Patch.ArrayStyleIndexed | src/render.js:254-278 | an array given as `style` is an object: each index key `"0"`, `"1"`, … is set to its item, or removed when the item is nullish, and `cssText` is not written |
| Patch.PatchStyle | src/render.js:254-281 | the style branch: an object diff when the next style is an object, otherwise the whole `cssText` |
| Patch.SetPropertyEffect | src/render.js:232-298 | a no-op when the normalised next value equals the baseline or the key is `shadowDom`; every branch keeps the node's identity, children and records and the registry invariant |
| Patch.SetProperty | src/render.js:232-298 | computes `SetPropertyEffect`, branch by branch in the source's precedence |
| Patch.ControlledLiveBaseline | src/render.js:238-242 | for id/className/checked/value/selected the baseline is the live property, so a live value equal to the next one makes the call a no-op |
| Patch.ControlledRestoresDrift | src/render.js:232-288 | when the live `value` has drifted from an unchanged prop, the prop is written back |
| Patch.EventRouted | src/render.js:244-249 | an `on…` key with a function as previous or next value is handled by `setEvent` with the normalised next value, and nothing else changes |
| Patch.KeyRouted | src/render.js:250-251 | a changed `key` prop is stored on the node, nullish as `null` |
| Patch.RefRouted | src/render.js:252-253 | a changed `ref` prop points the `current` of a truthy ref (an object, an array, a function or a vnode, each always truthy) at the node; nothing else changes |
| Patch.PropertyRouted | src/render.js:283-288 | on the property branch the live property takes the next value, `""` when it is nullish, and nothing else changes |
| Patch.AttributeWritten | src/render.js:283-296 | on the attribute branch a null value removes the attribute; any other value is written, objects in serialised form |
| Patch.DiffProps | src/render.js:221-230 | `diffProps` applies `setProperty`, in order, for every key only in the previous props (with `null`) and then for every key of the next props |
| Patch.UnsetMissing | src/render.js:222-226 | the first loop applies the removals |
| Patch.SetAll | src/render.js:227-229 | the second loop applies an update for every next key, with the previous value |
| Patch.VisitsCover | src/render.js:221-230 | every key of the next props is visited with its previous value; every key only in the previous props is visited with `null`; no other key is visited |
| Patch.DiffPropsKeepsRegistry | src/render.js:221-230 | any sequence of `setProperty` calls keeps the registry invariant and the registry's identity |
| ChildList.Prune | src/render.js:164-184 | the first loop of `diffChildren`: unkeyed, the children past the new length are removed; keyed, exactly the children whose key is in the index are kept, in order, and the index records the last child with each key |
| ChildList.KeptMembers | src/render.js:170-183 | the keyed first loop keeps a child if and only if its key is in the index |
| ChildList.IndexedRecords | src/render.js:170-178 | when the kept children carry pairwise distinct keys, the index records each kept child under its own key |
| ChildList.IndexedMembers | src/render.js:164-178 | the index holds every key of the child array, and each recorded node is a child carrying that key |
| ChildList.DetachAt | src/render.js:181-183 | in a list without repeated nodes, detaching the node at position `p` by identity (what `insertBefore` does before moving it) is exactly `remove()` of position `p` |
| ChildList.InsertFresh | src/render.js:201-206 | `insertBefore(n, childNodes[i])`, or `appendChild(n)` when there is no `i`-th child, puts a node not yet in the list exactly at position `i` and shifts the rest up by one |
| ChildList.InsertDistinct | src/render.js:191-206 | `insertBefore` never makes a node occur twice in the list |
| ChildList.ReplaceAt | src/render.js:207-208 | `replaceChild(n, childNodes[i])` with `n` new to the list, or the same node updated, puts `n` at position `i` and leaves every other position alone |
| ChildList.Reflect | src/render.js:139-148 | an update in place keeps the length and the node at every position; without repeated nodes it is exactly `list[i := n]` at the node's position, and a node not in the list changes nothing |
| Reconcile.Diff | src/render.js:81-151 | the fast path and a foreign vnode leave the node and the world unchanged; when the old node's `localName` equals the vnode's type as written (or the node is the raw node, or the vnode is `host`) that very node is returned, otherwise a fresh node with the next id or the raw node; a text vnode reuses a text node (writing `data`) or creates one; an element's record holds the vnode, its attributes, properties, style and listeners are those `diffProps` gives from the old record's props when the props object changed (unchanged otherwise), and its child list, or its shadow root's, is untouched when the children array is the one last rendered and is otherwise the full `diffChildren` result |
| Reconcile.DiffVNode | src/render.js:89-150 | for a vnode past the fast path: the node is kept, created or adopted as `diff` decides; it shows the vnode; an element gets its record and the props and children outcome |
| Reconcile.NewElement | src/render.js:100-112 | a new element has the next id; its `localName` is the tag in lower case (ASCII letters) when created with `createElement`, and the tag as written when created with `createElementNS` under SVG |
| Reconcile.CreatedKept | src/render.js:91-112 | an element created for a tag is kept by the next `diff` with that tag exactly when the tag is SVG or has no ASCII upper-case letter; an HTML tag such as `DIV` gets a new element on every render |
| Reconcile.DiffElement | src/render.js:128-150 | `node[id] == {vnode, handlers}`, with a fresh registry when the node is new or had no record and the previous one otherwise; the registry invariant holds afterwards; a shadow vnode gets a shadow root; the props outcome is that of `diffProps` on the element with its shadow root attached, from the previous record's props; the child list (or the shadow root's) is untouched when the children array is the one last rendered, and is otherwise the `diffChildren` result, new nodes taking ids after the registry's |
| Reconcile.Refresh | src/render.js:133-148 | the node's attributes, properties, style, listeners, key and registry are those `diffProps` gives when the props object changed and unchanged otherwise; unchanged children leave the child list (or the shadow root's list) alone, and changed children give it the `diffChildren` result position by position |
| Reconcile.PatchProps | src/render.js:139-141 | when the props object changed the result is exactly `Patch.DiffProps`' in-order `setProperty` calls (`ApplyVisits` over `Visits`), otherwise the node, registry and refs are untouched |
| Reconcile.PatchChildren | src/render.js:143-146 | an unchanged children array leaves the list and the world alone; a changed one gives the full `diffChildren` result: the unkeyed per-position result, the keyed removals, and the keyed per-position result when every child has its own key |
| Reconcile.DiffChildren | src/render.js:159-211 | unkeyed, the parent ends up with exactly `children.length` children, the `k`-th showing the `k`-th child and being the old `k`-th node when `diff` reuses it, a fresh node otherwise; keyed, every old child whose key is not in the index is gone; keyed with a distinct key per child, position `k` holds the node showing child `k`, which is the old node recorded for its key when `diff` reuses it and a fresh node otherwise; when moreover the kept old children carry distinct keys and every key of the index belongs to a child, the parent ends up with exactly `children.length` children |
| Reconcile.SecondTurn | src/render.js:185-210 | one turn of the second loop keeps the loop's state: the placed prefix grows by one position, the nodes after it are still the old ones (unkeyed), only kept or fresh nodes appear and the index entries of later children are unchanged (keyed) |
| Reconcile.TailStart | src/render.js:170-184 | when the kept children carry distinct keys and every key of the index belongs to a child, each kept child is the recorded node of some child's key |
| Reconcile.TailTurn | src/render.js:185-210 | a turn of the second loop keeps that property for the children not yet placed: every node after position `i` is the recorded node of a later child |
| Reconcile.TailEnd | src/render.js:185-210 | so when the loop ends no node is left after the placed children |
| Reconcile.SecondLoopDone | src/render.js:185-211 | the loop's invariants at its end give the whole `diffChildren` result |
| Reconcile.Locate | src/render.js:187-197 | unkeyed, the candidate is the child at position `i`; keyed, it is the node the index records for the key, and when it is not among the first `i` children it ends up at position `i` with those `i` children left in place and the rest of the old list, without it, after it |
| ChildList.MoveTo | src/render.js:191-194 | `insertBefore(node, childNodes[i])`, or an append when there is no `i`-th child, puts a node that is not among the first `i` children at position `i`, leaves those children in place, and leaves after it the old rest of the list without the moved node |
| Reconcile.Place | src/render.js:186-209 | one turn of the second loop: unkeyed, position `i` ends up reconciled with the old `i`-th node as candidate and every other position is unchanged; keyed, a child with a null key is skipped leaving the index and the world alone (and the list too when the key is not in the index), otherwise the first `i` positions stay, position `i` holds the node placed for the child with the recorded node as candidate, and the positions after it hold the old ones from `i` on without the recorded node; only kept or fresh nodes appear |
| Reconcile.Settle | src/render.js:201-209 | with no candidate the new node is inserted before the `i`-th child, or appended when there is none; a node that replaces or updates the candidate at `i` takes exactly its position |
| Reconcile.DiffChild | src/render.js:199 | the node returned for a child shows it; it is the candidate itself when `diff` reuses it and a node with the next fresh id otherwise |
| Hooks.SetStateSpec | src/hooks/hooks.js:21-28 | the setter applies an updater function to the current value; a different value is stored and a render requested, an equal one changes nothing and requests none |
| Hooks.DispatchSpec | src/hooks/hooks.js:109-115 | a dispatch applies the slot's reducer to the state and the action; it stores and re-renders only on change |
| Hooks.LoadSpec | src/hooks/hooks.js:16-132 | a render pass gives slot `i` to the `i`-th hook call, allocating new slots at the end and leaving later ones alone |
| Hooks.LoadSlot | src/hooks/hooks.js:16-132 | slot `i` after a pass is the `i`-th hook call applied to slot `i` as it was before the pass (or to a fresh slot past the end), and the pass's events are those of the calls in call order |
| Hooks.CommitSlot | src/hooks/tests/create-hooks.test.js:58-61 | slot `i` after a phase is slot `i` given that phase on its own |
| Hooks.CommitEventsAppend | src/hooks/tests/create-hooks.test.js:58-61 | a phase dispatched to two runs of slots gives the slots and the events of the first run followed by those of the second |
| Hooks.RunPass | src/hooks/hooks.js:16-132 | the loop over the body's hook calls computes `LoadSpec` |
| Hooks.RunPhase | src/hooks/tests/create-hooks.test.js:58-61 | the loop dispatching one phase to every slot computes `CommitSpec` |
| Hooks.Controller.Load | src/hooks/tests/create-hooks.test.js:59 | `load` runs the body with MOUNT before the first `updated()` and UPDATE afterwards, and appends the pass's events to the log |
| Hooks.Controller.Updated | src/hooks/tests/create-hooks.test.js:60 | `updated()` dispatches MOUNTED the first time and UPDATED afterwards, then marks the controller mounted |
| Hooks.Controller.Unmount | src/hooks/tests/create-hooks.test.js:60 | `unmount()` dispatches UNMOUNT to every slot |
| Hooks.Controller.SetState | src/hooks/hooks.js:21-28 | the setter of slot `i` changes that slot only, as `SetStateSpec` says |
| Hooks.Controller.Dispatch | src/hooks/hooks.js:109-115 | the dispatcher of slot `i` changes that slot only, as `DispatchSpec` says |
| HookLaws.StateInitialisedOnMount | src/hooks/hooks.js:19-20 | on MOUNT the value is the initial state, or the result of calling it once when it is a function |
| HookLaws.StateKeptAfterMount | src/hooks/hooks.js:18-32 | after mounting, neither a render pass nor a phase changes the state slot, whatever initial state is passed |
| HookLaws.SetterSettles | src/hooks/hooks.js:25-28 | setting the same plain value twice requests at most one render |
| HookLaws.EffectDecision | src/hooks/hooks.js:42-46 | each render decides once whether the effect runs (no stored deps, no args, or different args) and replaces the snapshot by the args |
| HookLaws.EffectCycle | src/hooks/hooks.js:49-72 | over UPDATE then UPDATED, unchanged deps call nothing; changed deps call the previous cleanup (if any) and then the effect, whose result becomes the cleanup |
| HookLaws.EffectMounts | src/hooks/hooks.js:65-71 | on MOUNTED the effect always runs, once |
| HookLaws.UnmountCleansOnce | src/hooks/hooks.js:49-63 | UNMOUNT calls a pending cleanup once and clears it (a second UNMOUNT calls nothing), and resets the deps so the next render must run the effect |
| HookLaws.MemoRecomputes | src/hooks/hooks.js:97-101 | `useMemo` recomputes exactly when there are no stored deps, no args, or they differ; it always stores the args and otherwise keeps the cached value |
| HookLaws.MemoStable | src/hooks/hooks.js:97-101 | a second render with the same args calls nothing and changes nothing |
| HookLaws.CallbackIsMemo | src/hooks/hooks.js:130-131 | `useCallback(fn, args)` keeps the slot `useMemo(() => fn, args)` keeps, and calls nothing |
| HookLaws.RefAllocatedOnce | src/hooks/hooks.js:84-85 | `useRef` seeds its box once; later renders ignore their argument |
| HookLaws.ReducerRefreshed | src/hooks/hooks.js:106-120 | the initial state is taken on MOUNT only, the reducer is refreshed on every render, and a dispatch applies the latest reducer |
| HookLaws.ScenarioSteps | src/hooks/tests/create-hooks.test.js:67-69 | the log of three cycles splits into the steps `[1,2]`, `[3,4]`, `[3,5]` |
| HookLaws.PhaseScenario | src/hooks/tests/create-hooks.test.js:44-71 | two render-and-commit cycles and a render-and-unmount give a probe hook exactly MOUNT, MOUNTED / UPDATE, UPDATED / UPDATE, UNMOUNT, and nothing else |

## Left out

- The host tree is a value, not a graph of objects.
  - A raw-node vnode (`type` is an existing element) is adopted by id. Its
    removal from a previous parent elsewhere in the document is not modelled.
  - An update to a node is visible in the parent's list through
    `ChildList.Reflect`. Aliasing between different parents is not captured.
- Reconcile.DiffChildren: the result is stated for children that are not
  raw-node vnodes and for an old list of distinct nodes with identities
  already handed out. A raw node may already sit elsewhere in the list, which
  the value model does not track.
  - Unkeyed, the result is stated position by position.
  - Keyed, the removals are always stated. The per-position result is
    stated only when every child has its own non-null key, distinct from the
    others. With repeated or null keys the positions after the first clash
    are not stated.
  - Keyed, that nothing is left after the placed children (exactly
    `children.length` children) is stated only when, in addition, the kept
    old children carry distinct keys and every key of the index is the key
    of a child. Otherwise the source can leave old nodes behind.
    - With two old children `A` and `B` sharing key `k` and one new child
      with key `k`, the index records `B`. The second loop moves `B` to the
      front, and the result is `[B, A]`.
    - A keyed child that is not a vnode (a plain object with a `key`)
      registers its key in `flat` (src/render.js:360-364) but is rendered
      as `""`. The old node with that key is kept by the first loop and
      never placed by the second.
    - `VDom.HKeysDeclared` shows that the second condition holds whenever
      only vnode children carry keys.
- Reconcile.Diff: the precondition `Renderable` excludes some inputs.
  - At the top, it excludes values other than text, numbers, foreign objects
    and vnodes, and a raw-node vnode whose node is not an element.
  - A `host` vnode at the top needs an existing node (`IsHost(v) ==>
    node.Some?`). Without one, the source reads a record of `undefined`
    and throws.
  - Inside a children array, `host` vnodes and foreign objects are
    excluded. For a `host` child, the source reuses the node at that
    position and throws when there is none.
- Patch.RefRouted: a truthy primitive `ref` (a non-empty string, a
  non-zero number, `true`) leaves the refs unchanged. In the source,
  assigning `current` to a primitive throws a `TypeError`, because the
  module runs in strict mode (src/render.js:253). Objects, arrays,
  functions and vnodes get `current` as in the source.
- DOM operations are total.
  - `insertBefore` with a reference node no longer in the list appends.
  - `replaceChild` with a missing node leaves the list alone.
  - The DOM would throw in both cases.
- Element creation is abstracted. `createElementNS` namespaces, the `is`
  option and `attachShadow` modes are left out. SVG is one flag, and a new
  element exposes the live properties its `Schema` entry gives.
  - The document is taken to be an HTML document. `createElement` lower-cases
    ASCII letters of the tag, and `createElementNS` keeps it as written.
  - Name validation, which throws for an invalid tag, is not modelled.
- The key index `children._` is rebuilt from the key set on every pass.
  - In the source, `flat` creates one Map per children array
    (src/render.js:361-363). The first loop of `diffChildren` fills it
    (src/render.js:176), and the second loop only reads it
    (src/render.js:189).
  - The model rewrites a key's entry after `diff`. This stands for the same
    node object being updated in place, which the stored reference then
    shows.
  - Entries left in the Map by an earlier pass over the same array are not
    modelled.
- `JSON.stringify` of object attribute values is the opaque
  `Attr.Serialized`. The parse of `style.cssText` is not modelled.
- JavaScript loose equality (`==`, `!=`) is value equality. `isEqualArray`
  is sequence equality.
  - Objects and arrays carry their identity (`Ref`) and their entries.
  - Two objects or arrays with the same identity are taken to hold the same
    entries. Under that assumption, value equality is identity.
  - Mutation of an object or array after it was passed in is not modelled.
- Numbers (`Value.Num`) are mathematical integers. Floating point, `NaN`
  and `-0` are left out. The text of a number is its decimal digits.
- The text of an array (`ToText`) is empty, not the comma-joined text of its
  items. No modelled path converts an array to text:
  - children arrays are spread by `flat` first;
  - an array given as `style` takes the object branch, like the source;
  - an array attribute value is serialised.
- A vnode given as `style` also takes the object branch. Its own properties
  (`vdom`, `type`, `props`, …), which `for (key in value)` would enumerate,
  are not modelled: the model enumerates no keys for it.
- An array `style` value's index keys are written as declarations in the
  style map. What a browser's `CSSStyleDeclaration` does with a write to an
  index key is not modelled.
- VDom.ChildSource: a function, or an object that is not an array, given as
  `props.children` is taken as an empty list.
  - The source's `flat` loops up to `children.length` (src/render.js:353).
  - For a function that is its arity, and each index pushes `""`.
  - For an object with a numeric `length`, the loop reads its entries `"0"`,
    `"1"`, ….
  - Arities and array-like objects are not part of the value model.
  - A number, or an object without `length`, gives an empty list, as in the
    source.
- `addEventListener` and `removeEventListener` become a set of
  (registry, type) pairs. `handleEvent` and its `this` binding are not
  modelled.
- `create-hooks.js` is not part of this model.
  - The controller (`load`, `updated`, `unmount`, phase dispatch in slot
    order) is built only from what `src/hooks/tests/create-hooks.test.js`
    asserts.
  - `useRender` and `useHost` are not part of this model. The render
    request is the `Rendered` log event.
  - A render body that calls its hooks in a different order, or adds hooks
    once mounted, is excluded by `Hooks.Follows`.
- User functions (initial state, updaters, reducers, effects, memo
  callbacks) are the controller's total function `apply`. A cleanup value
  that is truthy but not a function would throw when called; the model logs
  the call.
- `src/element.js`, the custom-element adapter, is not modelled. It is
  lifecycle callbacks, event dispatch and scheduling.
- `custom-hooks/use-prop.js` and `custom-hooks/use-event.js` are not
  modelled either.

=== FILE: children.dfy ===
/**
 * A parent's live child list and the DOM operations `diffChildren` applies
 * to it (src/render.js).  Nodes are values; a node's identity is its `id`,
 * so "the same node" means "a node with the same id".  Moving a node
 * (`insertBefore`, `appendChild`, `replaceChild` with a node already in the
 * list) first detaches it, as the DOM does.
 */
module ChildList {
  import opened Wrappers
  import opened Dom

  /** `childNode.remove()` for the child at position `i`.  A helper: its
      ensures spell out the slices position by position, and `DetachAt` says
      how it relates to removing a node by identity. */
  function RemoveAt(list: seq<HostNode>, i: nat): (r: seq<HostNode>)
    requires i < |list|
    ensures |r| == |list| - 1
    ensures forall j :: 0 <= j < i ==> r[j] == list[j]
    ensures forall j :: i <= j < |r| ==> r[j] == list[j + 1]
  {
    list[..i] + list[i + 1..]
  }

  /** The list without the node `nid`. */
  function Detach(list: seq<HostNode>, nid: NodeId): (r: seq<HostNode>)
    ensures forall x | x in r :: x in list && x.id != nid
    ensures (forall x | x in list :: x.id != nid) ==> r == list
  {
    if list == [] then []
    else (if list[0].id == nid then [] else [list[0]]) + Detach(list[1..], nid)
  }

  /** The first position of node `nid`. */
  function Position(list: seq<HostNode>, nid: NodeId): (r: Option<nat>)
    ensures r.Some? ==> r.value < |list| && list[r.value].id == nid
    ensures r.Some? ==> forall j :: 0 <= j < r.value ==> list[j].id != nid
    ensures r.None? ==> forall x | x in list :: x.id != nid
  {
    if list == [] then None
    else if list[0].id == nid then Some(0)
    else match Position(list[1..], nid)
      case Some(p) => Some(p + 1)
      case None => None
  }

  /** `parent.insertBefore(n, before)`; an absent reference node appends
      (`appendChild(n)` is `InsertBefore(list, n, None)`). */
  function InsertBefore(list: seq<HostNode>, n: HostNode, before: Option<NodeId>): (r: seq<HostNode>)
    ensures forall x | x in r :: x in list || x == n
    ensures n in r
  {
    var l := Detach(list, n.id);
    var p := if before.Some? then Position(l, before.value) else None;
    if p.Some? then l[..p.value] + [n] + l[p.value..] else l + [n]
  }

  /** `parent.replaceChild(n, old)`. */
  function ReplaceChild(list: seq<HostNode>, n: HostNode, target: NodeId): (r: seq<HostNode>)
    ensures forall x | x in r :: x in list || x == n
  {
    var l := if n.id == target then list else Detach(list, n.id);
    match Position(l, target)
    case Some(p) => l[p := n]
    case None => l
  }

  /** A node updated in place: the list keeps its shape and its nodes, and
      the child carrying the node's id now shows the node's new state. */
  function Reflect(list: seq<HostNode>, n: HostNode): (r: seq<HostNode>)
    ensures |r| == |list| && forall j | 0 <= j < |list| :: r[j].id == list[j].id
    ensures forall x | x in r :: x in list || x == n
    ensures (forall x | x in list :: x.id != n.id) ==> r == list
    ensures forall i | 0 <= i < |list| && list[i].id == n.id :: DistinctIds(list) ==> r == list[i := n]
  {
    seq(|list|, j requires 0 <= j < |list| => if list[j].id == n.id then n else list[j])
  }

  /** Every id of the list is below `bound`, and no node occurs twice. */
  predicate FreshBelow(list: seq<HostNode>, bound: nat) {
    DistinctIds(list) && forall x | x in list :: x.id < bound
  }

  /** `replaceChild(n, list[i])` puts `n` at position `i` when `n` is that
      child itself or a node not in the list; nothing else moves. */
  lemma ReplaceAt(list: seq<HostNode>, i: nat, n: HostNode)
    requires DistinctIds(list) && i < |list|
    requires n.id == list[i].id || forall x | x in list :: x.id != n.id
    ensures ReplaceChild(list, n, list[i].id) == list[i := n]
  {
    PositionAt(list, i);
  }

  /** Detaching distributes over a split of the list. */
  lemma {:induction false} DetachConcat(a: seq<HostNode>, b: seq<HostNode>, nid: NodeId)
    ensures Detach(a + b, nid) == Detach(a, nid) + Detach(b, nid)
    decreases |a|
  {
    if a == [] {
      assert a + b == b;
    } else {
      var t := a[1..];
      var head := if a[0].id == nid then [] else [a[0]];
      assert (a + b)[0] == a[0] && (a + b)[1..] == t + b;
      DetachConcat(t, b, nid);
      assert Detach(a + b, nid) == head + (Detach(t, nid) + Detach(b, nid));
      assert Detach(a, nid) == head + Detach(t, nid);
      Regroup(head, Detach(t, nid), Detach(b, nid));
    }
  }

  /** Concatenation is associative. */
  lemma Regroup(p: seq<HostNode>, q: seq<HostNode>, s: seq<HostNode>)
    ensures p + (q + s) == (p + q) + s
  {
  }

  /** Detaching a node found only past position `i` leaves the first `i`
      children alone and detaches it from the rest. */
  lemma DetachAfter(list: seq<HostNode>, nid: NodeId, i: nat)
    requires i <= |list|
    requires forall k | 0 <= k < i :: list[k].id != nid
    ensures Detach(list, nid) == list[..i] + Detach(list[i..], nid)
  {
    var pre, post := list[..i], list[i..];
    assert list == pre + post;
    DetachConcat(pre, post, nid);
    assert forall x | x in pre :: x.id != nid;
  }

  /** The first child with the id of the child at `i` is that child, when the
      children before it carry other ids. */
  lemma {:induction false} PositionAt(l: seq<HostNode>, i: nat)
    requires i < |l|
    requires forall k | 0 <= k < i :: l[k].id != l[i].id
    ensures Position(l, l[i].id) == Some(i)
  {
    var p := Position(l, l[i].id);
    assert p.Some? && p.value <= i;
  }

  lemma InsertedAt(list: seq<HostNode>, n: HostNode, before: NodeId, p: nat)
    requires Position(Detach(list, n.id), before) == Some(p)
    ensures var l := Detach(list, n.id);
      InsertBefore(list, n, Some(before)) == l[..p] + [n] + l[p..]
  {
  }

  /** Moving node `n` in front of the child at position `i` (or to the end
      when `i` is the length) puts it at position `i`, leaves the positions
      before `i` alone and the rest as it was without `n`, provided `n` is
      not among the first `i` children. */
  lemma MoveTo(list: seq<HostNode>, n: HostNode, i: nat)
    requires DistinctIds(list) && i <= |list|
    requires forall k | 0 <= k < i :: list[k].id != n.id
    requires i < |list| ==> list[i].id != n.id
    ensures var r := InsertBefore(list, n, if i < |list| then Some(list[i].id) else None);
      && r == list[..i] + [n] + Detach(list[i..], n.id)
      && i < |r| && r[i] == n && r[..i] == list[..i]
  {
    var pre, rest := list[..i], Detach(list[i..], n.id);
    DetachAfter(list, n.id, i);
    if i < |list| {
      RestStarts(list, n.id, i);
      MovedBefore(list, n, i, pre, rest);
    } else {
      assert rest == [] && Detach(list, n.id) == pre;
      assert InsertBefore(list, n, None) == pre + [n];
    }
    SplicedAt(pre, n, rest);
  }

  lemma SplicedAt(pre: seq<HostNode>, n: HostNode, rest: seq<HostNode>)
    ensures var r := pre + [n] + rest; |pre| < |r| && r[|pre|] == n && r[..|pre|] == pre
  {
    var r := pre + [n] + rest;
    assert r[..|pre|] == pre;
  }

  /** Detaching the child at `i` from the children from `i` on leaves the
      ones after it. */
  lemma DetachHead(list: seq<HostNode>, i: nat)
    requires DistinctIds(list) && i < |list|
    ensures Detach(list[i..], list[i].id) == list[i + 1..]
  {
    var pre, post := list[..i], list[i + 1..];
    assert list[i..] == [list[i]] + post;
    DetachConcat([list[i]], post, list[i].id);
    assert Detach([list[i]], list[i].id) == [];
    OthersAround(list, i, pre, post);
    DetachNone(post, list[i].id);
  }

  lemma SplitAround(list: seq<HostNode>, i: nat)
    requires i < |list|
    ensures list == list[..i] + [list[i]] + list[i + 1..]
  {
    assert list[..i] + list[i..] == list;
    assert list[i..] == [list[i]] + list[i + 1..];
  }

  /** Detaching a node that is not there changes nothing. */
  lemma DetachNone(list: seq<HostNode>, nid: NodeId)
    requires forall k | 0 <= k < |list| :: list[k].id != nid
    ensures Detach(list, nid) == list
  {
    forall x | x in list ensures x.id != nid {
      var k :| 0 <= k < |list| && list[k] == x;
    }
  }

  /** Past a position whose child is not `nid`, detaching `nid` keeps that child first. */
  lemma RestStarts(list: seq<HostNode>, nid: NodeId, i: nat)
    requires i < |list| && list[i].id != nid
    ensures var rest := Detach(list[i..], nid); rest != [] && rest[0] == list[i]
  {
    assert list[i..] == [list[i]] + list[i + 1..];
    DetachConcat([list[i]], list[i + 1..], nid);
  }

  /** The step of `MoveTo` when there is an `i`-th child: with `n` detached
      the list is `pre + rest`, and `rest` starts with that child. */
  lemma MovedBefore(list: seq<HostNode>, n: HostNode, i: nat, pre: seq<HostNode>, rest: seq<HostNode>)
    requires DistinctIds(list) && i < |list| && pre == list[..i]
    requires Detach(list, n.id) == pre + rest && rest != [] && rest[0] == list[i]
    ensures InsertBefore(list, n, Some(list[i].id)) == pre + [n] + rest
  {
    var l := pre + rest;
    assert l[i] == list[i];
    assert forall k | 0 <= k < i :: l[k].id != l[i].id by {
      forall k | 0 <= k < i ensures l[k].id != l[i].id {
        assert l[k] == pre[k] == list[k];
      }
    }
    PositionAt(l, i);
    InsertedAt(list, n, list[i].id, i);
    assert l[..i] == pre && l[i..] == rest;
  }

  lemma DistinctCons(a: HostNode, s: seq<HostNode>)
    requires DistinctIds(s) && forall x | x in s :: x.id != a.id
    ensures DistinctIds([a] + s)
  {
    var t := [a] + s;
    forall i, j | 0 <= i < j < |t| ensures t[i].id != t[j].id {
      assert t[j] == s[j - 1];
      if i > 0 {
        assert t[i] == s[i - 1];
      }
    }
  }

  /** A node put at position `q` of a list it is not in repeats no node. */
  lemma DistinctSplice(l: seq<HostNode>, q: nat, n: HostNode)
    requires DistinctIds(l) && q <= |l| && forall x | x in l :: x.id != n.id
    ensures DistinctIds(l[..q] + [n] + l[q..])
  {
    var t := l[..q] + [n] + l[q..];
    assert forall k | 0 <= k < |t| :: t[k] == if k < q then l[k] else if k == q then n else l[k - 1];
    forall i, j | 0 <= i < j < |t| ensures t[i].id != t[j].id {
      if i == q {
        assert l[j - 1] in l;
      } else if j == q {
        assert l[i] in l;
      }
    }
  }

  /** Detaching a node leaves a list without repeated nodes without them. */
  lemma {:induction false} DetachDistinct(list: seq<HostNode>, nid: NodeId)
    requires DistinctIds(list)
    ensures DistinctIds(Detach(list, nid))
  {
    if list != [] {
      var rest := list[1..];
      assert forall k | 0 <= k < |rest| :: rest[k] == list[k + 1];
      DetachDistinct(rest, nid);
      var d := Detach(rest, nid);
      if list[0].id == nid {
        assert Detach(list, nid) == [] + d == d;
      } else {
        forall x | x in d ensures x.id != list[0].id {
          var k :| 0 <= k < |rest| && rest[k] == x;
          assert list[k + 1] == x;
        }
        DistinctCons(list[0], d);
      }
    }
  }

  /** In a list without repeated nodes, detaching the child at `p` takes out
      exactly that child and keeps the others in order. */
  lemma DetachAt(list: seq<HostNode>, p: nat)
    requires DistinctIds(list) && p < |list|
    ensures Detach(list, list[p].id) == RemoveAt(list, p)
  {
    var pre, post := list[..p], list[p + 1..];
    OthersAround(list, p, pre, post);
    DetachSplit(list, p, pre, post);
  }

  lemma DetachSplit(list: seq<HostNode>, p: nat, pre: seq<HostNode>, post: seq<HostNode>)
    requires p < |list| && pre == list[..p] && post == list[p + 1..]
    requires forall k | 0 <= k < |pre| :: pre[k].id != list[p].id
    requires forall k | 0 <= k < |post| :: post[k].id != list[p].id
    ensures Detach(list, list[p].id) == RemoveAt(list, p)
  {
    var x := list[p];
    SplitAround(list, p);
    DetachOnly(pre, x, post);
  }

  /** Detaching a node that occurs once removes exactly that occurrence. */
  lemma {:induction false} DetachOnly(pre: seq<HostNode>, x: HostNode, post: seq<HostNode>)
    requires forall k | 0 <= k < |pre| :: pre[k].id != x.id
    requires forall k | 0 <= k < |post| :: post[k].id != x.id
    ensures Detach(pre + [x] + post, x.id) == pre + post
    decreases |pre|
  {
    if pre == [] {
      var l := [x] + post;
      assert Detach(l, x.id) == Detach(post, x.id) by {
        assert l[0] == x && l[1..] == post;
      }
      assert Detach(post, x.id) == post by {
        assert forall y | y in post :: y.id != x.id;
      }
      assert pre + [x] + post == l;
    } else {
      calc {
        Detach(pre + [x] + post, x.id);
        { var l, rest := pre + [x] + post, pre[1..] + [x] + post;
          assert l[0] == pre[0] && l[1..] == rest; }
        [pre[0]] + Detach(pre[1..] + [x] + post, x.id);
        { DetachOnly(pre[1..], x, post); }
        [pre[0]] + (pre[1..] + post);
        pre + post;
      }
    }
  }

  /** In a list without repeated nodes, the children before and after
      position `p` carry ids other than the one at `p`. */
  lemma OthersAround(list: seq<HostNode>, p: nat, pre: seq<HostNode>, post: seq<HostNode>)
    requires DistinctIds(list) && p < |list|
    requires pre == list[..p] && post == list[p + 1..]
    ensures forall k | 0 <= k < |pre| :: pre[k].id != list[p].id
    ensures forall k | 0 <= k < |post| :: post[k].id != list[p].id
  {
    assert forall k | 0 <= k < |pre| :: pre[k] == list[k];
    assert forall k | 0 <= k < |post| :: post[k] == list[p + 1 + k];
  }

  /** `insertBefore(n, list[i])`, or `appendChild(n)` when `i` is the length,
      with a node not in the list: `n` is put exactly at position `i`. */
  lemma InsertFresh(list: seq<HostNode>, n: HostNode, i: nat)
    requires DistinctIds(list) && i <= |list|
    requires forall x | x in list :: x.id != n.id
    ensures InsertBefore(list, n, if i < |list| then Some(list[i].id) else None) == list[..i] + [n] + list[i..]
  {
    if i < |list| {
      PositionAt(list, i);
      InsertedAt(list, n, list[i].id, i);
    } else {
      assert list[..i] == list && list[i..] == [];
    }
  }

  /** `insertBefore` never makes a node occur twice. */
  lemma InsertDistinct(list: seq<HostNode>, n: HostNode, before: Option<NodeId>)
    requires DistinctIds(list)
    ensures DistinctIds(InsertBefore(list, n, before))
  {
    DetachDistinct(list, n.id);
    var l := Detach(list, n.id);
    var p := if before.Some? then Position(l, before.value) else None;
    var q := if p.Some? then p.value else |l|;
    assert l + [n] == l[..|l|] + [n] + l[|l|..];
    assert InsertBefore(list, n, before) == l[..q] + [n] + l[q..];
    DistinctSplice(l, q, n);
  }

  /** The children the keyed pass keeps: those whose key is in the index. */
  function Kept(list: seq<HostNode>, keys: set<Value>): seq<HostNode>
    decreases |list|
  {
    if list == [] then []
    else
      var init := Kept(list[..|list| - 1], keys);
      var last := list[|list| - 1];
      if last.key in keys then init + [last] else init
  }

  /** The keyed index after the first loop: every key starts as the
      placeholder (None, the source's 0) and is set to the last child
      carrying it. */
  function Indexed(list: seq<HostNode>, keys: set<Value>): map<Value, Option<HostNode>>
    decreases |list|
  {
    if list == [] then map k | k in keys :: None
    else
      var init := Indexed(list[..|list| - 1], keys);
      var last := list[|list| - 1];
      if last.key in keys then init[last.key := Some(last)] else init
  }

  /** The keyed pass keeps exactly the children whose key is in the index. */
  lemma {:induction false} KeptMembers(list: seq<HostNode>, keys: set<Value>)
    ensures forall x | x in Kept(list, keys) :: x in list && x.key in keys
    ensures forall x | x in list && x.key in keys :: x in Kept(list, keys)
    decreases |list|
  {
    if list != [] {
      var init := list[..|list| - 1];
      KeptMembers(init, keys);
      assert forall x | x in init :: x in list;
      assert forall x | x in list :: x in init || x == list[|list| - 1];
    }
  }

  /** The index holds every key of the child array, and records under a key
      only a child of the list carrying that key. */
  lemma {:induction false} IndexedMembers(list: seq<HostNode>, keys: set<Value>)
    ensures Indexed(list, keys).Keys == keys
    ensures var m := Indexed(list, keys);
      forall k | k in m && m[k].Some? :: m[k].value in list && m[k].value.key == k
    decreases |list|
  {
    if list != [] {
      var init := list[..|list| - 1];
      IndexedMembers(init, keys);
      assert forall x | x in init :: x in list;
    }
  }

  /** The old children whose key is in the index carry pairwise distinct keys. */
  predicate KeptKeysApart(list: seq<HostNode>, keys: set<Value>) {
    forall a, b | 0 <= a < b < |list| && list[a].key in keys && list[b].key in keys :: list[a].key != list[b].key
  }

  /** When the kept children carry distinct keys, the index records each of
      them under its own key. */
  lemma {:induction false} IndexedRecords(list: seq<HostNode>, keys: set<Value>)
    requires KeptKeysApart(list, keys)
    ensures forall x | x in list && x.key in keys ::
      x.key in Indexed(list, keys) && Indexed(list, keys)[x.key] == Some(x)
    decreases |list|
  {
    IndexedMembers(list, keys);
    if list != [] {
      var init, last := list[..|list| - 1], list[|list| - 1];
      assert forall a | 0 <= a < |init| :: init[a] == list[a];
      IndexedRecords(init, keys);
      IndexedMembers(init, keys);
      forall x | x in list && x.key in keys ensures x.key in Indexed(list, keys) && Indexed(list, keys)[x.key] == Some(x) {
        if x != last {
          var a :| 0 <= a < |list| && list[a] == x;
          assert a < |list| - 1 && init[a] == x;
        }
      }
    }
  }

  lemma KeptStep(list: seq<HostNode>, s: nat, keyed: Option<set<Value>>)
    requires s < |list|
    ensures list[..s] + list[s..] == list && list[s..][1..] == list[s + 1..] && list[s..][0] == list[s]
    ensures keyed.Some? ==>
      && Kept(list[..s + 1], keyed.value) ==
           Kept(list[..s], keyed.value) + (if list[s].key in keyed.value then [list[s]] else [])
      && Indexed(list[..s + 1], keyed.value) ==
           var m := Indexed(list[..s], keyed.value);
           if list[s].key in keyed.value then m[list[s].key := Some(list[s])] else m
  {
    assert list[..s + 1][..s] == list[..s];
  }

  /** The first loop of `diffChildren`.  Without a keyed index the children
      past the new length are removed; with one, every child whose key is not
      in the index is removed and the others are recorded in it. */
  method Prune(list: seq<HostNode>, length: nat, keyed: Option<set<Value>>)
      returns (r: seq<HostNode>, index: map<Value, Option<HostNode>>)
    ensures keyed.None? ==> r == list[..if |list| > length then length else |list|]
    ensures keyed.Some? ==> r == Kept(list, keyed.value) && index == Indexed(list, keyed.value)
  {
    r := list;
    index := if keyed.Some? then Indexed([], keyed.value) else map[];
    var count: nat := |list|;
    var i: nat := if keyed.Some? then 0 else if count > length then length else count;
    ghost var start := i;
    ghost var done: seq<HostNode> := list[..start];
    while i < count
      invariant Pruned(list, keyed, start, done, r, i, count, index)
      decreases count - i
    {
      r, i, count, index, done := PruneOne(list, keyed, start, done, r, i, count, index);
    }
    assert list[..|list|] == list;
  }

  /** The state of the first loop: `done` is what it kept of the children
      seen so far, and the rest of the list is still to be seen. */
  ghost predicate Pruned(list: seq<HostNode>, keyed: Option<set<Value>>, start: nat, done: seq<HostNode>,
                         r: seq<HostNode>, i: nat, count: nat, index: map<Value, Option<HostNode>>)
  {
    var seen := i + (|list| - count);
    && start <= i <= count == |r| && count <= |list|
    && r == done + list[seen..] && |done| == i
    && (keyed.None? ==> done == list[..start])
    && (keyed.Some? ==> done == Kept(list[..seen], keyed.value) && index == Indexed(list[..seen], keyed.value))
  }

  /** One turn of the first loop: keep and record a child whose key is in
      the index, remove any other. */
  method PruneOne(list: seq<HostNode>, keyed: Option<set<Value>>, ghost start: nat, ghost done: seq<HostNode>,
                  r: seq<HostNode>, i: nat, count: nat, index: map<Value, Option<HostNode>>)
      returns (r': seq<HostNode>, i': nat, count': nat, index': map<Value, Option<HostNode>>, ghost done': seq<HostNode>)
    requires Pruned(list, keyed, start, done, r, i, count, index) && i < count
    ensures Pruned(list, keyed, start, done', r', i', count', index')
    ensures count' - i' < count - i
  {
    var child := r[i];
    if keyed.Some? && child.key in keyed.value {
      KeepStep(list, keyed, start, done, r, i, count, index);
      return r, i + 1, count, index[child.key := Some(child)], done + [child];
    }
    DropStep(list, keyed, start, done, r, i, count, index);
    // `index--` and the loop's `index++` cancel out
    r', i', count', index', done' := RemoveAt(r, i), i, count - 1, index, done;
  }

  /** Keeping the child at `i` records it and moves past it. */
  lemma KeepStep(list: seq<HostNode>, keyed: Option<set<Value>>, start: nat, done: seq<HostNode>,
                 r: seq<HostNode>, i: nat, count: nat, index: map<Value, Option<HostNode>>)
    requires Pruned(list, keyed, start, done, r, i, count, index) && i < count
    requires keyed.Some? && r[i].key in keyed.value
    ensures Pruned(list, keyed, start, done + [r[i]], r, i + 1, count, index[r[i].key := Some(r[i])])
  {
    var seen := i + (|list| - count);
    KeptStep(list, seen, keyed);
    SplitAt(done, list[seen..]);
  }

  /** Removing the child at `i` leaves the position to its successor. */
  lemma DropStep(list: seq<HostNode>, keyed: Option<set<Value>>, start: nat, done: seq<HostNode>,
                 r: seq<HostNode>, i: nat, count: nat, index: map<Value, Option<HostNode>>)
    requires Pruned(list, keyed, start, done, r, i, count, index) && i < count
    requires !(keyed.Some? && r[i].key in keyed.value)
    ensures Pruned(list, keyed, start, done, RemoveAt(r, i), i, count - 1, index)
  {
    var seen := i + (|list| - count);
    KeptStep(list, seen, keyed);
    SplitAt(done, list[seen..]);
  }

  lemma SplitAt(a: seq<HostNode>, b: seq<HostNode>)
    requires b != []
    ensures (a + b)[|a|] == b[0]
    ensures RemoveAt(a + b, |a|) == a + b[1..]
    ensures a + b == (a + [b[0]]) + b[1..]
  {
    assert (a + b)[..|a|] == a;
    assert (a + b)[|a| + 1..] == b[1..];
  }
}

=== FILE: dom.dfy ===
/**
 * The values the reconciler works on: JavaScript values as they reach `h`,
 * `flat` and `diff`, virtual nodes, and the host (DOM-like) nodes they are
 * reconciled onto.  Object identity, which the source compares with `==`,
 * is an explicit `ref` number: two objects are the same object exactly when
 * their refs are equal.
 */
module Dom {
  import opened Wrappers

  type Ref = nat
  type NodeId = nat
  type PassId = string

  /** The JavaScript values the core distinguishes. */
  datatype Value =
    | Undefined
    | Null
    | Bool(b: bool)
    | Num(n: int)
    | Str(s: string)
    | Fun(fn: Ref)
    | Obj(obj: Ref, entries: seq<(string, Value)>)
      /** an array: its identity and its items; like objects, two arrays with
        the same ref are taken to hold the same items */
    | Arr(arr: Ref, items: seq<Value>)
      /** an object that has a `type` but not the engine's private marker */
    | Foreign(obj: Ref, entries: seq<(string, Value)>)
      /** a virtual node stamped by `h` */
    | V(vnode: VNode)

  /** A vnode's `type`: a tag name, or an element host node handed in as is (`raw`). */
  datatype VType = Tag(name: string) | RawNode(node: HostNode)

  /** A props object: its identity and its own enumerable entries, in order. */
  datatype Props = Props(ref: Ref, entries: seq<(string, Value)>)

  /** A flattened child list: its identity, its items, and the keyed index `_`
      (None when no child declared a key). */
  datatype Children = Children(ref: Ref, items: seq<Value>, keyed: Option<set<Value>>)

  datatype VNode = VNode(ref: Ref, vtype: VType, props: Props, children: Children,
                         key: Value, shadow: Value)

  datatype Kind = Element | Text

  /** What `setAttribute` received: the value itself, or the JSON text of an object. */
  datatype Attr = Plain(v: Value) | Serialized(v: Value)

  /** The per-node, per-pass handler registry: its identity, whether
      `handleEvent` has been installed, and one handler per event type. */
  datatype Registry = Registry(ref: Ref, dispatcher: bool, entries: map<string, Value>)

  /** The render record stored under a pass id: `{vnode, handlers}`. */
  datatype Record = Record(vnode: VNode, handlers: Registry)

  /** A host node.  `properties` holds the live properties the node exposes
      (`key in node` is membership in it); `listeners` holds the native
      listeners as (registry identity, event type) pairs; `key` is the private
      KEY slot; `records` holds `node[id]` per pass id. */
  datatype HostNode = HostNode(
    id: NodeId,
    kind: Kind,
    localName: string,
    svg: bool,
    data: string,
    children: seq<HostNode>,
    shadowRoot: Option<seq<HostNode>>,
    attributes: map<string, Attr>,
    properties: map<string, Value>,
    style: map<string, Value>,
    cssText: string,
    listeners: set<(Ref, string)>,
    key: Value,
    records: map<PassId, Record>)

  /** The identity of EMPTY_PROPS and of EMPTY_CHILDREN. */
  const EmptyRef: Ref := 0
  const EmptyProps := Props(EmptyRef, [])
  const EmptyChildren := Children(EmptyRef, [], None)

  /** JavaScript truthiness. */
  predicate Truthy(v: Value) {
    match v
    case Undefined => false
    case Null => false
    case Bool(b) => b
    case Num(n) => n != 0
    case Str(s) => s != ""
    case _ => true
  }

  /** `v == null` with loose equality: null or undefined. */
  predicate Nullish(v: Value) {
    v.Undefined? || v.Null?
  }

  predicate IsFunction(v: Value) {
    v.Fun?
  }

  /** `typeof v == "object"` for a non-null value. */
  predicate IsObject(v: Value) {
    v.Obj? || v.Arr? || v.Foreign? || v.V?
  }

  /** The value of property `k` of an object given by its entries, `undefined` when absent. */
  function Lookup(entries: seq<(string, Value)>, k: string): (r: Value)
    ensures !Nullish(r) ==> exists i :: 0 <= i < |entries| && entries[i] == (k, r)
  {
    if entries == [] then Undefined
    else if entries[0].0 == k then entries[0].1
    else Lookup(entries[1..], k)
  }

  predicate HasKey(entries: seq<(string, Value)>, k: string) {
    exists i :: 0 <= i < |entries| && entries[i].0 == k
  }

  /** The `key` property of a value, as `child.key` reads it. */
  function KeyOf(v: Value): Value {
    match v
    case V(vn) => vn.key
    case Obj(_, es) => Lookup(es, "key")
    case Foreign(_, es) => Lookup(es, "key")
    case _ => Undefined
  }

  /** The keys a list of children declares. */
  function KeysOf(items: seq<Value>): set<Value> {
    set j | 0 <= j < |items| :: KeyOf(items[j])
  }

  /** Decimal text of an integer, as `n + ""` writes it. */
  function NatText(n: nat): (r: string)
    ensures |r| >= 1
    ensures r[|r| - 1] == Digit(n % 10)
    ensures n < 10 <==> |r| == 1
    ensures n >= 10 ==> r[..|r| - 1] == NatText(n / 10)
    decreases n
  {
    if n < 10 then [Digit(n)] else NatText(n / 10) + [Digit(n % 10)]
  }

  /** The character of a decimal digit. */
  function Digit(d: nat): (c: char)
    requires d < 10
    ensures '0' <= c <= '9' && c as int - '0' as int == d
  {
    ('0' as int + d) as char
  }

  /** Different numbers have different decimal texts. */
  lemma {:induction false} NatTextInjective(a: nat, b: nat)
    ensures NatText(a) == NatText(b) ==> a == b
    decreases a
  {
    if NatText(a) == NatText(b) && a >= 10 {
      NatTextInjective(a / 10, b / 10);
    }
  }

  function IntText(n: int): string {
    if n < 0 then "-" + NatText(-n) else NatText(n)
  }

  /** `v + ""`: the string conversion of a value. */
  function ToText(v: Value): string {
    match v
    case Undefined => "undefined"
    case Null => "null"
    case Bool(b) => if b then "true" else "false"
    case Num(n) => IntText(n)
    case Str(s) => s
    case Arr(_, _) => ""
    case _ => "[object Object]"
  }

  /** The values `diff` is given for a child: text, a number, or a stamped vnode. */
  predicate ChildValue(v: Value) {
    v.Str? || v.Num? || v.V?
  }

  /** The identities of the nodes of a child list. */
  function Ids(nodes: seq<HostNode>): set<NodeId> {
    set n | n in nodes :: n.id
  }

  /** No two nodes of a child list are the same node. */
  predicate DistinctIds(nodes: seq<HostNode>) {
    forall i, j :: 0 <= i < j < |nodes| ==> nodes[i].id != nodes[j].id
  }
}

=== FILE: hook_laws.dfy ===
/**
 * What the built-in hooks promise, stated over the slot functions of the
 * `Hooks` module: when state is initialised, when effects and their
 * cleanups run, when memoised values are recomputed, which reducer a
 * dispatch uses, and the order in which a probe hook sees the phases.
 */
module HookLaws {
  import opened Wrappers
  import opened Dom
  import opened Hooks

  /** `useState` initialises its slot on MOUNT only, calling a function initial state once. */
  lemma StateInitialisedOnMount(h: Option<Hook>, init: Value, apply: Apply)
    requires h.Some? ==> h.value.state.StateSlot?
    ensures var (r, e) := Use(h, UseState(init), Mount, apply);
      && r.state == StateSlot(if IsFunction(init) then apply(init, []) else init)
      && e == if IsFunction(init) then [Called(init, [])] else []
  {
  }

  /** After mounting, neither a render pass nor a commit phase touches a
      `useState` slot, whatever initial state the render passes. */
  lemma StateKeptAfterMount(h: Hook, init: Value, phase: Phase, apply: Apply)
    requires h.state.StateSlot? && h.call.UseState? && phase != Mount
    ensures Use(Some(h), UseState(init), phase, apply) == (Hook(UseState(init), h.state), [])
    ensures Commit(h, phase, apply) == (h, [])
  {
    var (r, e) := Use(Some(h), UseState(init), phase, apply);
    assert r.state == h.state;
    assert e == [];
  }

  /** Setting a plain value twice renders at most once. */
  lemma SetterSettles(value: Value, next: Value, apply: Apply)
    requires !IsFunction(next)
    ensures var (v, e) := SetStateSpec(value, next, apply);
      v == next && SetStateSpec(v, next, apply) == (v, [])
  {
  }

  /** A render pass decides, once per closure, whether the effect runs, and
      replaces the stored dependencies by the render's arguments. */
  lemma EffectDecision(h: Hook, callback: Value, args: Option<seq<Value>>, phase: Phase, apply: Apply)
    requires h.state.EffectSlot? && phase in {Mount, Update}
    ensures var r := Use(Some(h), UseEffect(callback, args), phase, apply).0.state;
      && r.run == Some(MustRun(args, h.state.deps))
      && r.deps == args
  {
  }

  /** A whole update cycle of an effect: with unchanged dependencies nothing
      is called; otherwise the previous cleanup (when there is one) and then
      the effect, whose result becomes the new cleanup. */
  lemma EffectCycle(h: Hook, callback: Value, args: Option<seq<Value>>, apply: Apply)
    requires h.state.EffectSlot?
    ensures var (u, e1) := Use(Some(h), UseEffect(callback, args), Update, apply);
      var (c, e2) := Commit(u, Updated, apply);
      var s := h.state;
      && (!MustRun(args, s.deps) ==> e1 + e2 == [] && c.state.cleanup == s.cleanup)
      && (MustRun(args, s.deps) ==>
            && e1 + e2 == (if Truthy(s.cleanup) then [Called(s.cleanup, [])] else []) + [Called(callback, [])]
            && c.state.cleanup == apply(callback, []))
      && c.state.deps == args
  {
    var s := h.state;
    var (u, e1) := Use(Some(h), UseEffect(callback, args), Update, apply);
    assert u.state.run == Some(MustRun(args, s.deps));
  }

  /** On mount an effect always runs after the first render, once. */
  lemma EffectMounts(callback: Value, args: Option<seq<Value>>, apply: Apply)
    ensures var (u, e1) := Use(None, UseEffect(callback, args), Mount, apply);
      var (c, e2) := Commit(u, Mounted, apply);
      && e1 + e2 == [Called(callback, [])]
      && c.state == EffectSlot(args, apply(callback, []), Some(true))
  {
  }

  /** UNMOUNT calls a pending cleanup exactly once, and forgets the
      dependencies so that a later mount runs the effect again. */
  lemma UnmountCleansOnce(h: Hook, callback: Value, args: Option<seq<Value>>, phase: Phase, apply: Apply)
    requires h.state.EffectSlot? && h.call.UseEffect?
    ensures var (u, e) := Commit(h, Unmount, apply);
      && e == (if Truthy(h.state.cleanup) then [Called(h.state.cleanup, [])] else [])
      && u.state.deps.None? && !Truthy(u.state.cleanup)
      && Commit(u, Unmount, apply).1 == []
      && Use(Some(u), UseEffect(callback, args), phase, apply).0.state.run == Some(true)
  {
  }

  /** `useMemo` recomputes exactly when there are no stored dependencies, no
      arguments, or they differ, and always stores the arguments. */
  lemma MemoRecomputes(h: Hook, callback: Value, args: Option<seq<Value>>, phase: Phase, apply: Apply)
    requires h.state.MemoSlot?
    ensures var (r, e) := Use(Some(h), UseMemo(callback, args), phase, apply);
      && r.state.deps == args
      && (Recompute(h.state.deps, args) ==> r.state.value == apply(callback, []) && e == [Called(callback, [])])
      && (!Recompute(h.state.deps, args) ==> r.state.value == h.state.value && e == [])
  {
  }

  /** Rendering twice with the same arguments gives the same value and calls nothing the second time. */
  lemma MemoStable(h: Hook, callback: Value, deps: seq<Value>, phase: Phase, apply: Apply)
    requires h.state.MemoSlot?
    ensures var (r, _) := Use(Some(h), UseMemo(callback, Some(deps)), phase, apply);
      Use(Some(r), UseMemo(callback, Some(deps)), phase, apply) == (r, [])
  {
  }

  /** `useCallback(fn, args)` keeps the slot `useMemo(() => fn, args)` keeps. */
  lemma CallbackIsMemo(h: Option<Hook>, fn: Value, thunk: Value, args: Option<seq<Value>>, phase: Phase, apply: Apply)
    requires h.Some? ==> h.value.state.MemoSlot?
    requires apply(thunk, []) == fn
    ensures Use(h, UseCallback(fn, args), phase, apply).0.state == Use(h, UseMemo(thunk, args), phase, apply).0.state
    ensures Use(h, UseCallback(fn, args), phase, apply).1 == []
  {
  }

  /** `useRef` allocates its box once: later renders ignore their argument. */
  lemma RefAllocatedOnce(h: Option<Hook>, current: Value, phase: Phase, apply: Apply)
    requires h.Some? ==> h.value.state.RefSlot?
    ensures var (r, e) := Use(h, UseRef(current), phase, apply);
      && r.state == (if h.Some? then h.value.state else RefSlot(current))
      && e == []
  {
  }

  /** `useReducer` takes the initial state on MOUNT only and refreshes the
      reducer on every render, so a dispatch applies the latest reducer. */
  lemma ReducerRefreshed(h: Hook, reducer: Value, init: Value, action: Value, phase: Phase, apply: Apply)
    requires h.state.ReducerSlot?
    ensures var (r, e) := Use(Some(h), UseReducer(reducer, init), phase, apply);
      && e == []
      && r.state == ReducerSlot(if phase == Mount then init else h.state.state, reducer)
      && DispatchSpec(r.state, action, apply).1[0] == Called(reducer, [r.state.state, action])
  {
  }

  /** The phase codes a probe hook saw, in order, from the closures of render `tag`. */
  function Steps(log: seq<Event>, tag: nat): (r: seq<nat>)
    ensures |r| <= |log|
    ensures forall c | c in r :: 1 <= c <= 5
  {
    if log == [] then []
    else
      var rest := Steps(log[1..], tag);
      match log[0]
      case Probed(t, p) => if t == tag then [p.Code()] + rest else rest
      case _ => rest
  }

  lemma StepsAt(log: seq<Event>, k: nat, tag: nat)
    requires k < |log|
    ensures Steps(log[k..], tag) ==
      (if log[k].Probed? && log[k].tag == tag then [log[k].phase.Code()] else []) + Steps(log[k + 1..], tag)
  {
    assert log[k..][1..] == log[k + 1..];
  }

  /** The steps of each render in the log of three cycles. */
  lemma ScenarioSteps(log: seq<Event>)
    requires log == [Probed(0, Mount), Probed(0, Mounted), Probed(1, Update), Probed(1, Updated),
                     Probed(2, Update), Probed(2, Unmount)]
    ensures [Steps(log, 0), Steps(log, 1), Steps(log, 2)] == [[1, 2], [3, 4], [3, 5]]
  {
    assert log[6..] == [] && log[0..] == log;
    forall tag: nat { StepsAt(log, 5, tag); }
    forall tag: nat { StepsAt(log, 4, tag); }
    forall tag: nat { StepsAt(log, 3, tag); }
    forall tag: nat { StepsAt(log, 2, tag); }
    forall tag: nat { StepsAt(log, 1, tag); }
    forall tag: nat { StepsAt(log, 0, tag); }
    assert Steps(log[6..], 2) == [];
    assert Steps(log[5..], 2) == [5];
    assert Steps(log[4..], 2) == [3, 5];
    assert Steps(log[2..], 1) == [3, 4];
    assert Steps(log[0..], 0) == [1, 2];
  }

  /** The first render pass of a body that is one probe hook. */
  lemma ProbeMount(tag: nat, apply: Apply)
    ensures Order([Probe(tag)], [])
    ensures LoadSpec([], [Probe(tag)], Mount, apply) == ([Hook(Probe(tag), ProbeSlot)], [Probed(tag, Mount)])
  {
    assert [Probe(tag)][..0] == [];
    assert LoadSpec([], [], Mount, apply) == ([], []);
    assert OnPhase(Probe(tag), ProbeSlot, Mount, apply) == (ProbeSlot, [Probed(tag, Mount)]);
    assert InBody(Probe(tag), ProbeSlot, apply) == (ProbeSlot, []);
    assert [Probed(tag, Mount)] + [] == [] + [Probed(tag, Mount)] == [Probed(tag, Mount)];
    assert Use(None, Probe(tag), Mount, apply) == (Hook(Probe(tag), ProbeSlot), [Probed(tag, Mount)]);
    assert [] + [Hook(Probe(tag), ProbeSlot)] == [Hook(Probe(tag), ProbeSlot)];
    assert Extend([], 0, Probe(tag), Mount, apply) == ([Hook(Probe(tag), ProbeSlot)], [Probed(tag, Mount)]);
  }

  /** A later render pass of a body that is one probe hook. */
  lemma ProbePass(prev: nat, tag: nat, apply: Apply)
    ensures var hooks := [Hook(Probe(prev), ProbeSlot)];
      && WellShaped(hooks) && Order([Probe(tag)], hooks)
      && LoadSpec(hooks, [Probe(tag)], Update, apply) == ([Hook(Probe(tag), ProbeSlot)], [Probed(tag, Update)])
  {
    var hooks := [Hook(Probe(prev), ProbeSlot)];
    assert [Probe(tag)][..0] == [];
    assert LoadSpec(hooks, [], Update, apply) == (hooks, []);
    assert OnPhase(Probe(tag), ProbeSlot, Update, apply) == (ProbeSlot, [Probed(tag, Update)]);
    assert InBody(Probe(tag), ProbeSlot, apply) == (ProbeSlot, []);
    assert [Probed(tag, Update)] + [] == [] + [Probed(tag, Update)] == [Probed(tag, Update)];
    assert Use(Some(hooks[0]), Probe(tag), Update, apply) == (Hook(Probe(tag), ProbeSlot), [Probed(tag, Update)]);
    assert hooks[0 := Hook(Probe(tag), ProbeSlot)] == [Hook(Probe(tag), ProbeSlot)];
    assert Extend(hooks, 0, Probe(tag), Update, apply) == ([Hook(Probe(tag), ProbeSlot)], [Probed(tag, Update)]);
  }

  /** A phase dispatched to one probe's slot. */
  lemma ProbeCommit(tag: nat, phase: Phase, apply: Apply)
    ensures var hooks := [Hook(Probe(tag), ProbeSlot)];
      WellShaped(hooks) && CommitSpec(hooks, phase, apply) == (hooks, [Probed(tag, phase)])
  {
    var hooks := [Hook(Probe(tag), ProbeSlot)];
    assert hooks[..0] == [];
    assert CommitSpec([], phase, apply) == ([], []);
    assert OnPhase(Probe(tag), ProbeSlot, phase, apply) == (ProbeSlot, [Probed(tag, phase)]);
    assert Commit(hooks[0], phase, apply) == (hooks[0], [Probed(tag, phase)]);
    assert [] + hooks == hooks && [] + [Probed(tag, phase)] == [Probed(tag, phase)];
  }

  /** Three cycles of a component whose body is one probe hook: two
      render-and-commit cycles, then a render and an unmount.  The probe of
      each render sees MOUNT then MOUNTED, UPDATE then UPDATED, UPDATE then
      UNMOUNT, and nothing else is dispatched. */
  method PhaseScenario() returns (log: seq<Event>, steps: seq<seq<nat>>)
    ensures log == [Probed(0, Mount), Probed(0, Mounted), Probed(1, Update), Probed(1, Updated),
                    Probed(2, Update), Probed(2, Unmount)]
    ensures steps == [[1, 2], [3, 4], [3, 5]]
  {
    var c := new Controller((f: Value, args: seq<Value>) => Undefined);
    ProbeMount(0, c.apply);
    c.Load([Probe(0)]);
    ProbeCommit(0, Mounted, c.apply);
    c.Updated();
    ProbePass(0, 1, c.apply);
    c.Load([Probe(1)]);
    ProbeCommit(1, Updated, c.apply);
    c.Updated();
    ProbePass(1, 2, c.apply);
    c.Load([Probe(2)]);
    ProbeCommit(2, Unmount, c.apply);
    c.Unmount();
    log := c.log;
    ScenarioSteps(log);
    steps := [Steps(log, 0), Steps(log, 1), Steps(log, 2)];
  }
}

=== FILE: hooks.dfy ===
/**
 * The built-in hooks of src/hooks/hooks.js over a minimal hook controller.
 *
 * A hook is one positional slot.  Each render pass (`load`) calls the hooks
 * of the render body in order; a hook built on a phase callback gets MOUNT
 * (first pass) or UPDATE (later passes) while it is called, MOUNTED or
 * UPDATED from `updated()`, and UNMOUNT from `unmount()`.  The controller
 * keeps, per slot, the latest render's call (whose closure the phases run)
 * and the slot's state.  User functions are applied through `apply`; every
 * call of a user function, every re-render request and every phase a probe
 * hook sees is appended to the controller's log, in order.
 */
module Hooks {
  import opened Wrappers
  import opened Dom

  /** The phase codes of create-hooks.js. */
  datatype Phase = Mount | Mounted | Update | Updated | Unmount {
    function Code(): (c: nat)
      ensures 1 <= c <= 5
    {
      match this
      case Mount => 1
      case Mounted => 2
      case Update => 3
      case Updated => 4
      case Unmount => 5
    }
  }

  /** One hook call of a render body, with the arguments of that render. */
  datatype HookCall =
    | UseState(initial: Value)
    | UseEffect(callback: Value, args: Option<seq<Value>>)
    | UseRef(current: Value)
    | UseMemo(callback: Value, args: Option<seq<Value>>)
    | UseReducer(reducer: Value, initial: Value)
    | UseCallback(callback: Value, args: Option<seq<Value>>)
      /** a bare `useHook` whose phase callback records the phases it receives under `tag` */
    | Probe(tag: nat)

  /** What a slot holds, per hook: `[value, setter]`, `[deps, cleanup]`
      (with the `executeEffect` decision of the latest render's closure),
      `{current}`, `[deps, value]`, `[state, dispatch, reducer]`. */
  datatype Slot =
    | StateSlot(value: Value)
    | EffectSlot(deps: Option<seq<Value>>, cleanup: Value, run: Option<bool>)
    | RefSlot(current: Value)
    | MemoSlot(deps: Option<seq<Value>>, value: Value)
    | ReducerSlot(state: Value, reducer: Value)
    | ProbeSlot

  datatype Hook = Hook(call: HookCall, state: Slot)

  /** What the controller observes. */
  datatype Event = Called(fn: Value, args: seq<Value>) | Rendered | Probed(tag: nat, phase: Phase)

  type Apply = (Value, seq<Value>) -> Value

  /** The slot `useHook` allocates on first access, seeded with its initial state. */
  function Initial(c: HookCall): (s: Slot)
    ensures Fits(c, s)
  {
    match c
    case UseState(_) => StateSlot(Undefined)
    case UseEffect(_, _) => EffectSlot(None, Undefined, None)
    case UseRef(cur) => RefSlot(cur)
    case UseMemo(_, _) => MemoSlot(None, Undefined)
    case UseCallback(_, _) => MemoSlot(None, Undefined)
    case UseReducer(_, _) => ReducerSlot(Undefined, Undefined)
    case Probe(_) => ProbeSlot
  }

  /** The slot has the shape of the hook. */
  predicate Fits(c: HookCall, s: Slot) {
    match c
    case UseState(_) => s.StateSlot?
    case UseEffect(_, _) => s.EffectSlot?
    case UseRef(_) => s.RefSlot?
    case UseMemo(_, _) => s.MemoSlot?
    case UseCallback(_, _) => s.MemoSlot?
    case UseReducer(_, _) => s.ReducerSlot?
    case Probe(_) => s.ProbeSlot?
  }

  /** The same hook at the same position: the same kind of call. */
  predicate SameHook(a: HookCall, b: HookCall) {
    && (a.UseState? <==> b.UseState?) && (a.UseEffect? <==> b.UseEffect?)
    && (a.UseRef? <==> b.UseRef?) && (a.UseMemo? <==> b.UseMemo?)
    && (a.UseReducer? <==> b.UseReducer?) && (a.UseCallback? <==> b.UseCallback?)
    && (a.Probe? <==> b.Probe?)
  }

  /** Hooks whose `useHook` callback is a phase function; `useRef`, `useMemo`
      and `useCallback` pass `0` and get no phases. */
  predicate Dispatching(c: HookCall) {
    c.UseState? || c.UseEffect? || c.UseReducer? || c.Probe?
  }

  /** `executeEffect`: run when there are no args, no stored deps, or they differ. */
  predicate MustRun(args: Option<seq<Value>>, deps: Option<seq<Value>>) {
    if args.Some? && deps.Some? then args.value != deps.value else true
  }

  /** The `useEffect` phase callback. */
  function EffectPhase(s: Slot, callback: Value, args: Option<seq<Value>>, phase: Phase, apply: Apply): (r: (Slot, seq<Event>))
    requires s.EffectSlot?
    ensures r.0.EffectSlot? && r.0.run.Some?
  {
    var run := if s.run.Some? then s.run.value else MustRun(args, s.deps);
    var deps := if s.run.Some? then s.deps else args;
    match phase
    case Update =>
      var clean := run && Truthy(s.cleanup);
      (EffectSlot(deps, if clean then Num(0) else s.cleanup, Some(run)),
       if clean then [Called(s.cleanup, [])] else [])
    case Unmount =>
      var clean := Truthy(s.cleanup);
      (EffectSlot(None, if clean then Num(0) else s.cleanup, Some(run)),
       if clean then [Called(s.cleanup, [])] else [])
    case Mounted =>
      (EffectSlot(deps, apply(callback, []), Some(run)), [Called(callback, [])])
    case Updated =>
      if run then (EffectSlot(deps, apply(callback, []), Some(run)), [Called(callback, [])])
      else (EffectSlot(deps, s.cleanup, Some(run)), [])
    case Mount =>
      (EffectSlot(deps, s.cleanup, Some(run)), [])
  }

  /** What the phase callback of a hook does to its slot. */
  function OnPhase(c: HookCall, s: Slot, phase: Phase, apply: Apply): (r: (Slot, seq<Event>))
    requires Fits(c, s)
    ensures Fits(c, r.0)
  {
    match c
    case UseState(init) =>
      if phase == Mount then
        if IsFunction(init) then (StateSlot(apply(init, [])), [Called(init, [])]) else (StateSlot(init), [])
      else (s, [])
    case UseEffect(callback, args) => EffectPhase(s, callback, args, phase, apply)
    case UseReducer(_, init) =>
      if phase == Mount then (ReducerSlot(init, s.reducer), []) else (s, [])
    case Probe(tag) => (s, [Probed(tag, phase)])
    case _ => (s, [])
  }

  /** `useMemo`: recompute when there are no stored deps, no args, or they differ. */
  predicate Recompute(deps: Option<seq<Value>>, args: Option<seq<Value>>) {
    deps.None? || args.None? || deps.value != args.value
  }

  /** What a hook does in the render body once `useHook` has returned its slot. */
  function InBody(c: HookCall, s: Slot, apply: Apply): (r: (Slot, seq<Event>))
    requires Fits(c, s)
    ensures Fits(c, r.0)
  {
    match c
    case UseMemo(callback, args) =>
      if Recompute(s.deps, args) then (MemoSlot(args, apply(callback, [])), [Called(callback, [])])
      else (MemoSlot(args, s.value), [])
    case UseCallback(callback, args) =>
      (MemoSlot(args, if Recompute(s.deps, args) then callback else s.value), [])
    case UseReducer(reducer, _) => (ReducerSlot(s.state, reducer), [])
    case _ => (s, [])
  }

  /** One hook call of a render pass: allocate the slot on first access,
      install this render's closure (a fresh `executeEffect`), dispatch the
      pass's phase, then run the hook's body. */
  function Use(h: Option<Hook>, c: HookCall, phase: Phase, apply: Apply): (r: (Hook, seq<Event>))
    requires h.Some? ==> Fits(c, h.value.state)
    ensures r.0.call == c && Fits(c, r.0.state)
  {
    var s0 := if h.Some? then h.value.state else Initial(c);
    var s1 := if s0.EffectSlot? then s0.(run := None) else s0;
    var (s2, e1) := if Dispatching(c) then OnPhase(c, s1, phase, apply) else (s1, []);
    var (s3, e2) := InBody(c, s2, apply);
    (Hook(c, s3), e1 + e2)
  }

  /** A phase dispatched from `updated()` or `unmount()` to one slot. */
  function Commit(h: Hook, phase: Phase, apply: Apply): (r: (Hook, seq<Event>))
    requires Fits(h.call, h.state)
    ensures r.0.call == h.call && Fits(h.call, r.0.state)
  {
    if Dispatching(h.call) then
      var (s, e) := OnPhase(h.call, h.state, phase, apply);
      (Hook(h.call, s), e)
    else (h, [])
  }

  predicate WellShaped(hooks: seq<Hook>) {
    forall i | 0 <= i < |hooks| :: Fits(hooks[i].call, hooks[i].state)
  }

  /** The hook-order obligation of the render body: at every position it
      calls the hook it called before, and once mounted it adds none. */
  predicate Follows(body: seq<HookCall>, hooks: seq<Hook>, mounted: bool) {
    Order(body, hooks) && (mounted ==> |body| <= |hooks|)
  }

  /** The render body calls, at each position it shares with the slots, the same hook. */
  predicate Order(body: seq<HookCall>, hooks: seq<Hook>) {
    forall i | 0 <= i < |body| && i < |hooks| :: SameHook(body[i], hooks[i].call)
  }

  /** The `i`-th hook call of a pass: it updates slot `i`, or allocates it
      after the last one. */
  function Extend(hs: seq<Hook>, i: nat, c: HookCall, phase: Phase, apply: Apply): (r: (seq<Hook>, seq<Event>))
    requires i <= |hs| && (i < |hs| ==> Fits(c, hs[i].state))
  {
    var (h, e) := Use(if i < |hs| then Some(hs[i]) else None, c, phase, apply);
    (if i < |hs| then hs[i := h] else hs + [h], e)
  }

  /** The slots and the events of a render pass calling `body`. */
  function LoadSpec(hooks: seq<Hook>, body: seq<HookCall>, phase: Phase, apply: Apply): (r: (seq<Hook>, seq<Event>))
    requires WellShaped(hooks) && Order(body, hooks)
    ensures |r.0| == if |body| > |hooks| then |body| else |hooks|
    ensures WellShaped(r.0)
    ensures forall i | 0 <= i < |body| :: r.0[i].call == body[i]
    ensures forall i | |body| <= i < |hooks| :: r.0[i] == hooks[i]
    decreases |body|
  {
    if body == [] then (hooks, [])
    else
      var n := |body| - 1;
      var (hs, ev) := LoadSpec(hooks, body[..n], phase, apply);
      assert n < |hs| ==> hs[n] == hooks[n] && SameHook(body[n], hooks[n].call);
      var (hs', e) := Extend(hs, n, body[n], phase, apply);
      (hs', ev + e)
  }

  /** A pass over one more hook call is the pass so far extended by that call. */
  lemma LoadStep(hooks: seq<Hook>, body: seq<HookCall>, i: nat, phase: Phase, apply: Apply)
    requires WellShaped(hooks) && Order(body, hooks) && i < |body|
    ensures Order(body[..i], hooks) && Order(body[..i + 1], hooks)
    ensures var (hs, ev) := LoadSpec(hooks, body[..i], phase, apply);
      && i <= |hs| && (i < |hs| ==> Fits(body[i], hs[i].state))
      && LoadSpec(hooks, body[..i + 1], phase, apply) ==
         (Extend(hs, i, body[i], phase, apply).0, ev + Extend(hs, i, body[i], phase, apply).1)
  {
    assert body[..i + 1][..i] == body[..i];
    var hs := LoadSpec(hooks, body[..i], phase, apply).0;
    assert i < |hs| ==> hs[i] == hooks[i] && SameHook(body[i], hooks[i].call);
  }

  /** The slots and the events of a phase dispatched to every slot, in slot order. */
  function CommitSpec(hooks: seq<Hook>, phase: Phase, apply: Apply): (r: (seq<Hook>, seq<Event>))
    requires WellShaped(hooks)
    ensures |r.0| == |hooks| && WellShaped(r.0)
    ensures forall i | 0 <= i < |hooks| :: r.0[i].call == hooks[i].call
    decreases |hooks|
  {
    if hooks == [] then ([], [])
    else
      var n := |hooks| - 1;
      var (hs, ev) := CommitSpec(hooks[..n], phase, apply);
      var (h, e) := Commit(hooks[n], phase, apply);
      (hs + [h], ev + e)
  }

  /** The events of a render pass told hook call by hook call: each call
      meets the slot it had before the pass, in call order. */
  function PassEvents(hooks: seq<Hook>, body: seq<HookCall>, phase: Phase, apply: Apply): seq<Event>
    requires WellShaped(hooks) && Order(body, hooks)
    decreases |body|
  {
    if body == [] then []
    else
      var n := |body| - 1;
      assert n < |hooks| ==> SameHook(body[n], hooks[n].call);
      PassEvents(hooks, body[..n], phase, apply) + Use(At(hooks, n), body[n], phase, apply).1
  }

  /** A render pass treats every slot on its own: slot `i` is the `i`-th
      hook call applied to slot `i` as it was before the pass, and the
      pass's events are those of the calls in call order. */
  lemma {:induction false} LoadSlot(hooks: seq<Hook>, body: seq<HookCall>, phase: Phase, apply: Apply)
    requires WellShaped(hooks) && Order(body, hooks)
    ensures forall i | 0 <= i < |body| ::
      (i < |hooks| ==> SameHook(body[i], hooks[i].call)) &&
      LoadSpec(hooks, body, phase, apply).0[i] == Use(At(hooks, i), body[i], phase, apply).0
    ensures LoadSpec(hooks, body, phase, apply).1 == PassEvents(hooks, body, phase, apply)
    decreases |body|
  {
    if body != [] {
      var n := |body| - 1;
      LoadSlot(hooks, body[..n], phase, apply);
    }
  }

  /** A phase reaches every slot on its own: slot `i` afterwards is slot `i`
      committed alone. */
  lemma {:induction false} CommitSlot(hooks: seq<Hook>, phase: Phase, apply: Apply)
    requires WellShaped(hooks)
    ensures forall i | 0 <= i < |hooks| ::
      CommitSpec(hooks, phase, apply).0[i] == Commit(hooks[i], phase, apply).0
    decreases |hooks|
  {
    if hooks != [] {
      var n := |hooks| - 1;
      CommitSlot(hooks[..n], phase, apply);
    }
  }

  /** Dispatching a phase to two runs of slots gives the events of the first
      run, then those of the second. */
  lemma {:induction false} CommitEventsAppend(a: seq<Hook>, b: seq<Hook>, phase: Phase, apply: Apply)
    requires WellShaped(a) && WellShaped(b)
    ensures WellShaped(a + b)
    ensures CommitSpec(a + b, phase, apply) ==
      (CommitSpec(a, phase, apply).0 + CommitSpec(b, phase, apply).0,
       CommitSpec(a, phase, apply).1 + CommitSpec(b, phase, apply).1)
    decreases |b|
  {
    if b == [] {
      assert a + b == a;
      assert CommitSpec(b, phase, apply) == ([], []);
      var (hs, ev) := CommitSpec(a, phase, apply);
      assert hs + [] == hs && ev + [] == ev;
    } else {
      var n := |b| - 1;
      ShapedParts(a, b, n);
      var (ha, ea) := CommitSpec(a, phase, apply);
      var (hb, eb) := CommitSpec(b[..n], phase, apply);
      var (h, e) := Commit(b[n], phase, apply);
      calc {
        CommitSpec(a + b, phase, apply);
        { assert (a + b)[..|a + b| - 1] == a + b[..n] && (a + b)[|a + b| - 1] == b[n]; }
        (CommitSpec(a + b[..n], phase, apply).0 + [h], CommitSpec(a + b[..n], phase, apply).1 + e);
        { CommitEventsAppend(a, b[..n], phase, apply); }
        (ha + hb + [h], ea + eb + e);
        { assert ha + hb + [h] == ha + (hb + [h]) && ea + eb + e == ea + (eb + e); }
        (ha + (hb + [h]), ea + (eb + e));
      }
    }
  }

  lemma ShapedParts(a: seq<Hook>, b: seq<Hook>, n: nat)
    requires WellShaped(a) && WellShaped(b) && n <= |b|
    ensures WellShaped(a + b) && WellShaped(b[..n]) && WellShaped(a + b[..n])
  {
    assert forall i | 0 <= i < |a + b| :: (a + b)[i] == if i < |a| then a[i] else b[i - |a|];
    assert forall i | 0 <= i < n :: b[..n][i] == b[i];
    assert forall i | 0 <= i < |a| + n :: (a + b[..n])[i] == if i < |a| then a[i] else b[i - |a|];
  }

  /** The setter of `useState`: an updater function is applied to the
      current value; a different value is stored and a render requested. */
  function SetStateSpec(value: Value, next: Value, apply: Apply): (r: (Value, seq<Event>))
    ensures var n := if IsFunction(next) then apply(next, [value]) else next;
      && (n != value ==> r.0 == n && Rendered in r.1)
      && (n == value ==> r.0 == value && Rendered !in r.1)
  {
    var n := if IsFunction(next) then apply(next, [value]) else next;
    var calls := if IsFunction(next) then [Called(next, [value])] else [];
    if n != value then (n, calls + [Rendered]) else (value, calls)
  }

  /** The dispatcher of `useReducer`: the slot's current reducer is applied. */
  function DispatchSpec(s: Slot, action: Value, apply: Apply): (r: (Slot, seq<Event>))
    requires s.ReducerSlot?
    ensures r.0.ReducerSlot? && r.0.reducer == s.reducer
    ensures var n := apply(s.reducer, [s.state, action]);
      && (n != s.state ==> r.0.state == n && r.1 == [Called(s.reducer, [s.state, action]), Rendered])
      && (n == s.state ==> r.0 == s && r.1 == [Called(s.reducer, [s.state, action])])
  {
    var n := apply(s.reducer, [s.state, action]);
    var e := [Called(s.reducer, [s.state, action])];
    if n != s.state then (s.(state := n), e + [Rendered]) else (s, e)
  }

  /** One render pass: the body's hook calls in order, each on its slot. */
  method RunPass(hooks: seq<Hook>, body: seq<HookCall>, phase: Phase, apply: Apply)
      returns (hs: seq<Hook>, events: seq<Event>)
    requires WellShaped(hooks) && Order(body, hooks)
    ensures (hs, events) == LoadSpec(hooks, body, phase, apply)
  {
    hs, events := hooks, [];
    var i := 0;
    assert body[..0] == [];
    while i < |body|
      invariant 0 <= i <= |body|
      invariant LoadSpec(hooks, body[..i], phase, apply) == (hs, events)
    {
      LoadStep(hooks, body, i, phase, apply);
      var (next, e) := Extend(hs, i, body[i], phase, apply);
      hs, events := next, events + e;
      i := i + 1;
    }
    assert body[..i] == body;
  }

  lemma CommitStep(hooks: seq<Hook>, i: nat, phase: Phase, apply: Apply)
    requires WellShaped(hooks) && i < |hooks|
    ensures WellShaped(hooks[..i]) && WellShaped(hooks[..i + 1])
    ensures var (hs, ev) := CommitSpec(hooks[..i], phase, apply);
      var (h, e) := Commit(hooks[i], phase, apply);
      CommitSpec(hooks[..i + 1], phase, apply) == (hs + [h], ev + e)
  {
    assert hooks[..i + 1][..i] == hooks[..i];
  }

  /** One phase dispatched to every slot, in slot order. */
  method RunPhase(hooks: seq<Hook>, phase: Phase, apply: Apply) returns (hs: seq<Hook>, events: seq<Event>)
    requires WellShaped(hooks)
    ensures (hs, events) == CommitSpec(hooks, phase, apply)
  {
    hs, events := [], [];
    var i := 0;
    assert hooks[..0] == [];
    while i < |hooks|
      invariant 0 <= i <= |hooks|
      invariant CommitSpec(hooks[..i], phase, apply) == (hs, events)
    {
      CommitStep(hooks, i, phase, apply);
      var (h, e) := Commit(hooks[i], phase, apply);
      hs, events := hs + [h], events + e;
      i := i + 1;
    }
    assert hooks[..i] == hooks;
  }

  /** The hook controller of one component instance. */
  class Controller {
    var hooks: seq<Hook>
    var mounted: bool
    var log: seq<Event>
    const apply: Apply

    ghost predicate Valid()
      reads this
    {
      WellShaped(hooks)
    }

    constructor(apply: Apply)
      ensures Valid() && hooks == [] && !mounted && log == [] && this.apply == apply
    {
      hooks := [];
      mounted := false;
      log := [];
      this.apply := apply;
    }

    /** `load(body)`: the render body calls its hooks in slot order, each
        getting MOUNT before the first `updated()` and UPDATE after it. */
    method Load(body: seq<HookCall>)
      requires Valid() && Follows(body, hooks, mounted)
      modifies this
      ensures Valid() && mounted == old(mounted)
      ensures var spec := LoadSpec(old(hooks), body, if old(mounted) then Update else Mount, apply);
        hooks == spec.0 && log == old(log) + spec.1
    {
      var hs, events := RunPass(hooks, body, if mounted then Update else Mount, apply);
      hooks, log := hs, log + events;
    }

    /** Dispatch `phase` to every slot in slot order. */
    method DispatchAll(phase: Phase)
      requires Valid()
      modifies this
      ensures Valid() && mounted == old(mounted)
      ensures var spec := CommitSpec(old(hooks), phase, apply);
        hooks == spec.0 && log == old(log) + spec.1
    {
      var hs, events := RunPhase(hooks, phase, apply);
      hooks, log := hs, log + events;
    }

    /** `updated()`: MOUNTED after the first render, UPDATED after later ones. */
    method Updated()
      requires Valid()
      modifies this
      ensures Valid() && mounted
      ensures var spec := CommitSpec(old(hooks), if old(mounted) then Phase.Updated else Phase.Mounted, apply);
        hooks == spec.0 && log == old(log) + spec.1
    {
      DispatchAll(if mounted then Phase.Updated else Phase.Mounted);
      mounted := true;
    }

    /** `unmount()`: UNMOUNT to every slot. */
    method Unmount()
      requires Valid()
      modifies this
      ensures Valid() && mounted == old(mounted)
      ensures var spec := CommitSpec(old(hooks), Phase.Unmount, apply);
        hooks == spec.0 && log == old(log) + spec.1
    {
      DispatchAll(Phase.Unmount);
    }

    /** The setter `state[1](next)` of the `useState` slot `i`. */
    method SetState(i: nat, next: Value)
      requires Valid() && i < |hooks| && hooks[i].call.UseState?
      modifies this
      ensures Valid() && mounted == old(mounted)
      ensures var spec := SetStateSpec(old(hooks)[i].state.value, next, apply);
        hooks == old(hooks)[i := Hook(old(hooks)[i].call, StateSlot(spec.0))] && log == old(log) + spec.1
    {
      var (v, e) := SetStateSpec(hooks[i].state.value, next, apply);
      hooks := hooks[i := Hook(hooks[i].call, StateSlot(v))];
      log := log + e;
    }

    /** The dispatcher `hook[1](action)` of the `useReducer` slot `i`. */
    method Dispatch(i: nat, action: Value)
      requires Valid() && i < |hooks| && hooks[i].call.UseReducer?
      modifies this
      ensures Valid() && mounted == old(mounted)
      ensures var spec := DispatchSpec(old(hooks)[i].state, action, apply);
        hooks == old(hooks)[i := Hook(old(hooks)[i].call, spec.0)] && log == old(log) + spec.1
    {
      var (s, e) := DispatchSpec(hooks[i].state, action, apply);
      hooks := hooks[i := Hook(hooks[i].call, s)];
      log := log + e;
    }
  }
}

=== FILE: patch.dfy ===
/**
 * The property patcher of src/render.js: `diffProps`, `setProperty`,
 * `setEvent` and `setPropertyStyle`.  A patch takes a host node, the
 * node's handler registry for the current pass, and the `current` slots of
 * the ref objects it may write, and returns all three updated.
 */
module Patch {
  import opened Wrappers
  import opened Dom

  /** FROM_PROP: keys whose comparison baseline is read live from the node. */
  predicate Controlled(k: string) {
    k == "id" || k == "className" || k == "checked" || k == "value" || k == "selected"
  }

  /** WITH_ATTR: keys always written as attributes. */
  predicate PreferAttribute(k: string) {
    k == "list" || k == "type" || k == "size" || k == "form" || k == "width" || k == "height" || k == "src"
  }

  /** `class` is written as `className` outside SVG. */
  function NormalizeKey(key: string, svg: bool): string {
    if key == "class" && !svg then "className" else key
  }

  /** `v == null ? null : v`. */
  function Normalize(v: Value): (r: Value)
    ensures !r.Undefined?
  {
    if Nullish(v) then Null else v
  }

  predicate IsEventKey(k: string, prev: Value, next: Value) {
    |k| >= 2 && k[0] == 'o' && k[1] == 'n' && (IsFunction(next) || IsFunction(prev))
  }

  /** The event name: the key without `on` or `on-`. */
  function EventType(k: string): (t: string)
    requires |k| >= 2
    ensures k == (if |k| > 2 && k[2] == '-' then "on-" else "on") + t || k[..2] != "on"
  {
    if |k| > 2 && k[2] == '-' then k[3..] else k[2..]
  }

  /** The registry invariant: a native listener for event type `t` is
      installed with this registry exactly when the registry holds a handler
      for `t`, and every stored handler is truthy. */
  ghost predicate RegistryValid(listeners: set<(Ref, string)>, reg: Registry) {
    && (forall t :: (reg.ref, t) in listeners ==> t in reg.entries)
    && (forall t :: t in reg.entries ==> (reg.ref, t) in listeners && Truthy(reg.entries[t]))
  }

  /** `setEvent(node, key, nextHandler, handlers)`. */
  function SetEvent(node: HostNode, key: string, next: Value, reg: Registry): (r: (HostNode, Registry))
    requires |key| >= 2
    ensures r.0 == node.(listeners := r.0.listeners)
    ensures r.1.ref == reg.ref && r.1.dispatcher
    ensures RegistryValid(node.listeners, reg) ==> RegistryValid(r.0.listeners, r.1)
    ensures Truthy(next) ==> EventType(key) in r.1.entries && r.1.entries[EventType(key)] == next
    ensures !Truthy(next) ==> EventType(key) !in r.1.entries
    ensures forall t | t != EventType(key) ::
      (t in r.1.entries <==> t in reg.entries) && (t in reg.entries ==> r.1.entries[t] == reg.entries[t])
    ensures forall x | x in r.0.listeners && x !in node.listeners ::
      x == (reg.ref, EventType(key)) && EventType(key) !in reg.entries && Truthy(next)
    ensures forall x | x in node.listeners && x !in r.0.listeners ::
      x == (reg.ref, EventType(key)) && EventType(key) in reg.entries && !Truthy(next)
  {
    var t := EventType(key);
    var reg1 := reg.(dispatcher := true);
    if Truthy(next) then
      var ls := if t in reg.entries then node.listeners else node.listeners + {(reg.ref, t)};
      (node.(listeners := ls), reg1.(entries := reg.entries[t := next]))
    else if t in reg.entries then
      (node.(listeners := node.listeners - {(reg.ref, t)}), reg1.(entries := reg.entries - {t}))
    else
      (node, reg1)
  }

  /** `setPropertyStyle(style, key, value)`: a null value removes the declaration. */
  function SetPropertyStyle(style: map<string, Value>, key: string, value: Value): (r: map<string, Value>)
    ensures Nullish(value) ==> key !in r
    ensures !Nullish(value) ==> key in r && r[key] == value
    ensures forall k | k != key :: (k in r <==> k in style) && (k in style ==> r[k] == style[k])
  {
    if Nullish(value) then style - {key} else style[key := value]
  }

  /** The entries `for (key in value)` enumerates on a style value: an
      object's own entries, or an array's index keys with its items. */
  function StyleEntries(v: Value): seq<(string, Value)> {
    match v
    case Obj(_, es) => es
    case Foreign(_, es) => es
    case Arr(_, items) => IndexEntries(items)
    case _ => []
  }

  /** The keys `"0"`, `"1"`, … of an array, each with its item. */
  function IndexEntries(items: seq<Value>): (r: seq<(string, Value)>)
    ensures |r| == |items| && UniqueKeys(r)
    ensures forall k | 0 <= k < |items| :: r[k].0 == NatText(k) && r[k].1 == items[k]
  {
    var r := seq(|items|, k requires 0 <= k < |items| => (NatText(k), items[k]));
    forall i, j | 0 <= i < j < |r| ensures r[i].0 != r[j].0 {
      NatTextInjective(i, j);
    }
    r
  }

  /** The keys the first style loop removes: in the previous style object, not in the next. */
  function DroppedKeys(prevE: seq<(string, Value)>, nextE: seq<(string, Value)>): set<string> {
    set i | 0 <= i < |prevE| && !HasKey(nextE, prevE[i].0) :: prevE[i].0
  }

  /** The style map after the second loop has handled the given next entries. */
  function StyleAssigned(style: map<string, Value>, prevE: seq<(string, Value)>, prevObj: bool,
                         nextE: seq<(string, Value)>): map<string, Value>
    decreases |nextE|
  {
    if nextE == [] then style
    else
      var s := StyleAssigned(style, prevE, prevObj, nextE[..|nextE| - 1]);
      var e := nextE[|nextE| - 1];
      if prevObj && Lookup(prevE, e.0) == e.1 then s else SetPropertyStyle(s, e.0, e.1)
  }

  /** The style declarations and style text after the `style` branch of `setProperty`.
      Writing `cssText` replaces every declaration; parsing the text is not modelled. */
  function StyleAfter(style: map<string, Value>, cssText: string, prev: Value, next: Value): (map<string, Value>, string) {
    var p := if Truthy(prev) then prev else Str("");
    var n := if Truthy(next) then next else Str("");
    if IsObject(n) then
      var s1 := if IsObject(p) then style - DroppedKeys(StyleEntries(p), StyleEntries(n)) else style;
      (StyleAssigned(s1, StyleEntries(p), IsObject(p), StyleEntries(n)), cssText)
    else (map[], ToText(n))
  }

  predicate UniqueKeys(entries: seq<(string, Value)>) {
    forall i, j :: 0 <= i < j < |entries| ==> entries[i].0 != entries[j].0
  }

  lemma LookupAt(entries: seq<(string, Value)>, i: nat)
    requires UniqueKeys(entries) && i < |entries|
    ensures Lookup(entries, entries[i].0) == entries[i].1
    decreases i
  {
    if i > 0 {
      assert entries[0].0 != entries[i].0;
      assert entries[1..][i - 1] == entries[i];
      LookupAt(entries[1..], i - 1);
    }
  }

  lemma LookupMissing(entries: seq<(string, Value)>, k: string)
    requires !HasKey(entries, k)
    ensures Lookup(entries, k) == Undefined
  {
    if entries != [] {
      assert entries[0].0 != k;
      assert forall i | 0 <= i < |entries[1..]| :: entries[1..][i] == entries[i + 1];
      LookupMissing(entries[1..], k);
    }
  }

  /** The declaration for key `k` after the second style loop: a key of the next
      style object that differs from the previous one is set (or removed when
      null); every other key keeps what it had. */
  lemma {:induction false} StyleAssignedAt(style: map<string, Value>, prevE: seq<(string, Value)>,
                                           prevObj: bool, nextE: seq<(string, Value)>, k: string)
    requires UniqueKeys(nextE)
    ensures var r := StyleAssigned(style, prevE, prevObj, nextE);
      var v := Lookup(nextE, k);
      if HasKey(nextE, k) && !(prevObj && Lookup(prevE, k) == v) then
        (Nullish(v) ==> k !in r) && (!Nullish(v) ==> k in r && r[k] == v)
      else
        (k in r <==> k in style) && (k in style ==> r[k] == style[k])
    decreases |nextE|
  {
    if nextE != [] {
      var init := nextE[..|nextE| - 1];
      var e := nextE[|nextE| - 1];
      assert UniqueKeys(init);
      StyleAssignedAt(style, prevE, prevObj, init, k);
      LookupAt(nextE, |nextE| - 1);
      if e.0 == k {
        assert !HasKey(init, k);
        LookupMissing(init, k);
      } else {
        LookupDrop(nextE, k);
        assert HasKey(nextE, k) <==> HasKey(init, k) by {
          if HasKey(nextE, k) {
            var i :| 0 <= i < |nextE| && nextE[i].0 == k;
            assert i < |nextE| - 1 && init[i].0 == k;
          }
        }
      }
    }
  }

  /** Dropping the last entry does not change the lookup of another key. */
  lemma LookupDrop(entries: seq<(string, Value)>, k: string)
    requires entries != [] && entries[|entries| - 1].0 != k
    ensures Lookup(entries, k) == Lookup(entries[..|entries| - 1], k)
    decreases |entries|
  {
    if |entries| > 1 && entries[0].0 != k {
      assert entries[1..][..|entries[1..]| - 1] == entries[..|entries| - 1][1..];
      LookupDrop(entries[1..], k);
    }
  }

  /** An array given as `style` is an object too: the second style loop sets
      each index key `"0"`, `"1"`, … to its item (and removes it when the item
      is nullish), and `cssText` is not written. */
  lemma ArrayStyleIndexed(style: map<string, Value>, cssText: string, prev: Value, aref: Ref,
                          items: seq<Value>, k: nat)
    requires !IsObject(prev) && k < |items|
    ensures var after := StyleAfter(style, cssText, prev, Arr(aref, items));
      && after.1 == cssText
      && (Nullish(items[k]) ==> NatText(k) !in after.0)
      && (!Nullish(items[k]) ==> NatText(k) in after.0 && after.0[NatText(k)] == items[k])
  {
    var es := IndexEntries(items);
    var p := if Truthy(prev) then prev else Str("");
    assert !IsObject(p) && StyleEntries(Arr(aref, items)) == es;
    assert StyleAfter(style, cssText, prev, Arr(aref, items)) == (StyleAssigned(style, StyleEntries(p), false, es), cssText);
    LookupAt(es, k);
    assert HasKey(es, NatText(k)) by { assert es[k].0 == NatText(k); }
    StyleAssignedAt(style, StyleEntries(p), false, es, NatText(k));
  }

  /** The first style loop: remove every key of the previous style object
      that the next one lacks. */
  method DropStyleKeys(style: map<string, Value>, prevE: seq<(string, Value)>, nextE: seq<(string, Value)>)
      returns (r: map<string, Value>)
    ensures r == style - DroppedKeys(prevE, nextE)
  {
    r := style;
    var i := 0;
    while i < |prevE|
      invariant 0 <= i <= |prevE|
      invariant r == style - DroppedKeys(prevE[..i], nextE)
    {
      if !HasKey(nextE, prevE[i].0) {
        r := SetPropertyStyle(r, prevE[i].0, Null);
      }
      assert DroppedKeys(prevE[..i + 1], nextE) ==
        DroppedKeys(prevE[..i], nextE) + (if HasKey(nextE, prevE[i].0) then {} else {prevE[i].0}) by {
        assert forall j | 0 <= j < i :: prevE[..i + 1][j] == prevE[..i][j];
      }
      i := i + 1;
    }
    assert prevE[..i] == prevE;
  }

  /** The second style loop: set every key whose value differs from the previous style object. */
  method AssignStyleKeys(style: map<string, Value>, prevE: seq<(string, Value)>, prevObj: bool,
                         nextE: seq<(string, Value)>) returns (r: map<string, Value>)
    ensures r == StyleAssigned(style, prevE, prevObj, nextE)
  {
    r := style;
    var j := 0;
    while j < |nextE|
      invariant 0 <= j <= |nextE|
      invariant r == StyleAssigned(style, prevE, prevObj, nextE[..j])
    {
      var e := nextE[j];
      assert nextE[..j + 1][..j] == nextE[..j];
      if !(prevObj && Lookup(prevE, e.0) == e.1) {
        r := SetPropertyStyle(r, e.0, e.1);
      }
      j := j + 1;
    }
    assert nextE[..j] == nextE;
  }

  /** The `style` branch of `setProperty`. */
  method PatchStyle(style: map<string, Value>, cssText: string, prev: Value, next: Value)
      returns (r: map<string, Value>, text: string)
    ensures (r, text) == StyleAfter(style, cssText, prev, next)
  {
    var p := if Truthy(prev) then prev else Str("");
    var n := if Truthy(next) then next else Str("");
    r, text := style, cssText;
    if IsObject(n) {
      if IsObject(p) {
        r := DropStyleKeys(r, StyleEntries(p), StyleEntries(n));
      }
      r := AssignStyleKeys(r, StyleEntries(p), IsObject(p), StyleEntries(n));
    } else {
      r, text := map[], ToText(n);
    }
  }

  /** The result of patching one node: the node, its registry, and the `current` slots of refs. */
  datatype Patched = Patched(node: HostNode, handlers: Registry, refs: map<Ref, NodeId>)

  /** The identity of an object value (a function, an array or any other
      object), for a `ref` prop; a primitive has none. */
  function RefOf(v: Value): Option<Ref> {
    match v
    case Fun(r) => Some(r)
    case Arr(r, _) => Some(r)
    case Obj(r, _) => Some(r)
    case Foreign(r, _) => Some(r)
    case V(vn) => Some(vn.ref)
    case _ => None
  }

  /** The comparison baseline: the live property for FROM_PROP keys the node has. */
  function Baseline(node: HostNode, key: string, prev: Value): Value {
    if key in node.properties && Controlled(key) then node.properties[key] else Normalize(prev)
  }

  /** Whether the last branch of `setProperty` assigns a live property rather than an attribute. */
  predicate AsProperty(node: HostNode, key: string, prev: Value, next: Value, svg: bool) {
    (!svg && !PreferAttribute(key) && key in node.properties) || IsFunction(next) || IsFunction(prev)
  }

  /** The branches of `setProperty`, in their order of precedence. */
  datatype Route = Unchanged | EventRoute | KeyRoute | RefRoute | StyleRoute
                 | PropertyRoute | RemoveAttribute | SetAttribute

  /** Which branch `setProperty` takes for the normalised key, baseline and next value. */
  function RouteOf(node: HostNode, key: string, prev: Value, next: Value, svg: bool): Route {
    if next == prev || key == "shadowDom" then Unchanged
    else if IsEventKey(key, prev, next) then EventRoute
    else if key == "key" then KeyRoute
    else if key == "ref" then RefRoute
    else if key == "style" then StyleRoute
    else if AsProperty(node, key, prev, next, svg) then PropertyRoute
    else if next == Null then RemoveAttribute
    else SetAttribute
  }

  /** The effect of one non-style branch (the style branch is `StyleAfter`). */
  function BranchEffect(route: Route, node: HostNode, key: string, next: Value,
                        reg: Registry, refs: map<Ref, NodeId>): (r: Patched)
    requires route == EventRoute ==> |key| >= 2
    ensures r.node.id == node.id && r.node.kind == node.kind && r.node.localName == node.localName
    ensures r.node.children == node.children && r.node.shadowRoot == node.shadowRoot
    ensures r.node.records == node.records && r.handlers.ref == reg.ref
    ensures RegistryValid(node.listeners, reg) ==> RegistryValid(r.node.listeners, r.handlers)
  {
    match route
    case EventRoute =>
      var (n, h) := SetEvent(node, key, next, reg);
      Patched(n, h, refs)
    case KeyRoute => Patched(node.(key := next), reg, refs)
    case RefRoute =>
      Patched(node, reg, if Truthy(next) && RefOf(next).Some? then refs[RefOf(next).value := node.id] else refs)
    case PropertyRoute =>
      Patched(node.(properties := node.properties[key := if next == Null then Str("") else next]), reg, refs)
    case RemoveAttribute => Patched(node.(attributes := node.attributes - {key}), reg, refs)
    case SetAttribute =>
      Patched(node.(attributes := node.attributes[key := if IsObject(next) then Serialized(next) else Plain(next)]), reg, refs)
    case _ => Patched(node, reg, refs)
  }

  /** `setProperty(node, key, prevValue, nextValue, isSvg, handlers)`, through its fixed precedence. */
  function SetPropertyEffect(node: HostNode, rawKey: string, prevValue: Value, nextValue: Value,
                             svg: bool, reg: Registry, refs: map<Ref, NodeId>): (r: Patched)
    ensures r.node.id == node.id && r.node.kind == node.kind && r.node.localName == node.localName
    ensures r.node.children == node.children && r.node.shadowRoot == node.shadowRoot
    ensures r.node.records == node.records && r.handlers.ref == reg.ref
    ensures RegistryValid(node.listeners, reg) ==> RegistryValid(r.node.listeners, r.handlers)
    ensures Normalize(nextValue) == Baseline(node, NormalizeKey(rawKey, svg), prevValue)
            || NormalizeKey(rawKey, svg) == "shadowDom"
            ==> r == Patched(node, reg, refs)
  {
    var key := NormalizeKey(rawKey, svg);
    var next := Normalize(nextValue);
    var prev := Baseline(node, key, prevValue);
    var route := RouteOf(node, key, prev, next, svg);
    if route == StyleRoute then
      var (st, css) := StyleAfter(node.style, node.cssText, prev, next);
      Patched(node.(style := st, cssText := css), reg, refs)
    else BranchEffect(route, node, key, next, reg, refs)
  }

  /** `setProperty`: straight-line except for the loops of the style branch. */
  method SetProperty(node: HostNode, rawKey: string, prevValue: Value, nextValue: Value,
                     svg: bool, reg: Registry, refs: map<Ref, NodeId>) returns (r: Patched)
    ensures r == SetPropertyEffect(node, rawKey, prevValue, nextValue, svg, reg, refs)
  {
    var key := NormalizeKey(rawKey, svg);
    var next := Normalize(nextValue);
    var prev := Baseline(node, key, prevValue);
    var route := RouteOf(node, key, prev, next, svg);
    if route == StyleRoute {
      var st, css := PatchStyle(node.style, node.cssText, prev, next);
      r := Patched(node.(style := st, cssText := css), reg, refs);
    } else {
      r := BranchEffect(route, node, key, next, reg, refs);
    }
  }

  /** A controlled prop whose value equals the node's live value is never
      written, whatever the previous props said: a user's edit survives a
      re-render with the same prop value. */
  lemma ControlledLiveBaseline(node: HostNode, key: string, prev: Value, next: Value, svg: bool,
                               reg: Registry, refs: map<Ref, NodeId>)
    requires Controlled(key) && key != "class" && key in node.properties
    requires node.properties[key] == Normalize(next)
    ensures SetPropertyEffect(node, key, prev, next, svg, reg, refs) == Patched(node, reg, refs)
  {
  }

  /** A controlled prop whose props did not change is still written when the
      live value drifted from it. */
  lemma {:induction false} ControlledRestoresDrift(node: HostNode, v: Value, svg: bool,
                                                   reg: Registry, refs: map<Ref, NodeId>)
    requires "value" in node.properties && node.properties["value"] != Normalize(v)
    requires !IsFunction(v) && !IsFunction(node.properties["value"]) && !svg
    ensures var r := SetPropertyEffect(node, "value", v, v, svg, reg, refs);
      "value" in r.node.properties && r.node.properties["value"] == (if Normalize(v) == Null then Str("") else Normalize(v))
  {
    assert Baseline(node, "value", v) == node.properties["value"];
    assert !IsEventKey("value", node.properties["value"], Normalize(v)) by {
      assert "value"[0] == 'v';
    }
    assert AsProperty(node, "value", node.properties["value"], Normalize(v), svg);
    assert RouteOf(node, "value", node.properties["value"], Normalize(v), svg) == PropertyRoute;
  }

  /** A plain attribute key (not a live property, not a function value) ends
      up holding the next value, or is removed when the next value is null. */
  lemma {:induction false} AttributeWritten(node: HostNode, key: string, prev: Value, next: Value,
                                            svg: bool, reg: Registry, refs: map<Ref, NodeId>)
    requires NormalizeKey(key, svg) == key && !Controlled(key)
    requires key != "key" && key != "ref" && key != "style" && key != "shadowDom"
    requires !IsFunction(prev) && !IsFunction(next)
    requires svg || PreferAttribute(key) || key !in node.properties
    requires Normalize(next) != Normalize(prev)
    ensures var a := SetPropertyEffect(node, key, prev, next, svg, reg, refs).node.attributes;
      && (Normalize(next) == Null ==> key !in a)
      && (Normalize(next) != Null ==> key in a && a[key] == if IsObject(next) then Serialized(next) else Plain(next))
  {
    var n, p := Normalize(next), Normalize(prev);
    assert Baseline(node, key, prev) == p;
    assert !IsEventKey(key, p, n);
    assert !AsProperty(node, key, p, n, svg);
    var route := if n == Null then RemoveAttribute else SetAttribute;
    assert RouteOf(node, key, p, n, svg) == route;
    assert SetPropertyEffect(node, key, prev, next, svg, reg, refs) == BranchEffect(route, node, key, n, reg, refs);
  }

  /** An `on…` key with a function on either side goes to `setEvent`, with
      the nullish value normalised to `null`. */
  lemma EventRouted(node: HostNode, key: string, prev: Value, next: Value,
                    svg: bool, reg: Registry, refs: map<Ref, NodeId>)
    requires |key| >= 2 && key[0] == 'o' && key[1] == 'n'
    requires IsFunction(prev) || IsFunction(next)
    requires Normalize(next) != Normalize(prev)
    ensures var (n, h) := SetEvent(node, key, Normalize(next), reg);
      SetPropertyEffect(node, key, prev, next, svg, reg, refs) == Patched(n, h, refs)
  {
  }

  /** The `key` prop is stored on the node (`node[KEY]`), normalised. */
  lemma KeyRouted(node: HostNode, prev: Value, next: Value,
                  svg: bool, reg: Registry, refs: map<Ref, NodeId>)
    requires Normalize(next) != Normalize(prev)
    ensures SetPropertyEffect(node, "key", prev, next, svg, reg, refs) ==
      Patched(node.(key := Normalize(next)), reg, refs)
  {
  }

  /** The `ref` prop points a truthy ref object's `current` at the node and
      touches nothing else; a falsy one does nothing. */
  lemma RefRouted(node: HostNode, prev: Value, next: Value,
                  svg: bool, reg: Registry, refs: map<Ref, NodeId>)
    requires Normalize(next) != Normalize(prev)
    ensures var r := SetPropertyEffect(node, "ref", prev, next, svg, reg, refs);
      && r.node == node && r.handlers == reg
      && r.refs == if Truthy(next) && RefOf(next).Some? then refs[RefOf(next).value := node.id] else refs
    ensures next.Fun? || next.Arr? || next.Obj? || next.Foreign? || next.V? ==>
      RefOf(next).Some? && SetPropertyEffect(node, "ref", prev, next, svg, reg, refs).refs == refs[RefOf(next).value := node.id]
  {
  }

  /** On the property branch the live property takes the next value, and
      `""` when the next value is nullish; attributes are left alone. */
  lemma PropertyRouted(node: HostNode, key: string, prev: Value, next: Value,
                       svg: bool, reg: Registry, refs: map<Ref, NodeId>)
    requires NormalizeKey(key, svg) == key
    requires !(|key| >= 2 && key[0] == 'o' && key[1] == 'n')
    requires key != "key" && key != "ref" && key != "style" && key != "shadowDom"
    requires var b := Baseline(node, key, prev);
      Normalize(next) != b && AsProperty(node, key, b, Normalize(next), svg)
    ensures var r := SetPropertyEffect(node, key, prev, next, svg, reg, refs);
      && r == Patched(r.node, reg, refs)
      && r.node == node.(properties := node.properties[key := if Nullish(next) then Str("") else next])
  {
  }

  /** One call of `setProperty`: key, previous value, next value. */
  type Visit = (string, Value, Value)

  /** The `setProperty` calls of the first loop of `diffProps`: each previous
      key the next props lack, with next value null. */
  function Removals(prevE: seq<(string, Value)>, nextE: seq<(string, Value)>): (r: seq<Visit>)
    ensures forall v | v in r :: HasKey(prevE, v.0) && !HasKey(nextE, v.0) && v.2 == Null
    decreases |prevE|
  {
    if prevE == [] then []
    else
      var init := Removals(prevE[..|prevE| - 1], nextE);
      var e := prevE[|prevE| - 1];
      assert forall v | v in init :: HasKey(prevE, v.0) by {
        forall v | v in init ensures HasKey(prevE, v.0) {
          var i :| 0 <= i < |prevE[..|prevE| - 1]| && prevE[..|prevE| - 1][i].0 == v.0;
          assert prevE[i].0 == v.0;
        }
      }
      if HasKey(nextE, e.0) then init else init + [(e.0, e.1, Null)]
  }

  /** The `setProperty` calls of the second loop: every next key with its
      previous value.  The ensures only spells out the comprehension; this is
      a specification helper, and what the loop is proved to do is `SetAll`. */
  function Updates(prevE: seq<(string, Value)>, nextE: seq<(string, Value)>): (r: seq<Visit>)
    ensures |r| == |nextE|
    ensures forall i :: 0 <= i < |nextE| ==> r[i] == (nextE[i].0, Lookup(prevE, nextE[i].0), nextE[i].1)
  {
    seq(|nextE|, i requires 0 <= i < |nextE| => (nextE[i].0, Lookup(prevE, nextE[i].0), nextE[i].1))
  }

  /** Every `setProperty` call `diffProps(node, props, nextProps, ...)` makes, in order. */
  function Visits(prev: Props, next: Props): seq<Visit> {
    Removals(prev.entries, next.entries) + Updates(prev.entries, next.entries)
  }

  /** The patch after the given `setProperty` calls, applied in order. */
  function ApplyVisits(p: Patched, visits: seq<Visit>, svg: bool): (r: Patched)
    ensures r.node.id == p.node.id && r.node.kind == p.node.kind && r.node.localName == p.node.localName
    ensures r.node.children == p.node.children && r.node.shadowRoot == p.node.shadowRoot
    ensures r.node.records == p.node.records && r.handlers.ref == p.handlers.ref
    decreases |visits|
  {
    if visits == [] then p
    else
      var q := ApplyVisits(p, visits[..|visits| - 1], svg);
      var v := visits[|visits| - 1];
      SetPropertyEffect(q.node, v.0, v.1, v.2, svg, q.handlers, q.refs)
  }

  lemma ApplyVisitsSnoc(p: Patched, visits: seq<Visit>, v: Visit, svg: bool)
    ensures ApplyVisits(p, visits + [v], svg) ==
      var q := ApplyVisits(p, visits, svg); SetPropertyEffect(q.node, v.0, v.1, v.2, svg, q.handlers, q.refs)
  {
    assert (visits + [v])[..|visits|] == visits;
  }

  lemma {:induction false} ApplyVisitsAppend(p: Patched, a: seq<Visit>, b: seq<Visit>, svg: bool)
    ensures ApplyVisits(p, a + b, svg) == ApplyVisits(ApplyVisits(p, a, svg), b, svg)
    decreases |b|
  {
    if b == [] {
      assert a + b == a;
    } else {
      var b' := b[..|b| - 1];
      assert a + b == (a + b') + [b[|b| - 1]];
      assert b == b' + [b[|b| - 1]];
      ApplyVisitsSnoc(p, a + b', b[|b| - 1], svg);
      ApplyVisitsSnoc(ApplyVisits(p, a, svg), b', b[|b| - 1], svg);
      ApplyVisitsAppend(p, a, b', svg);
    }
  }

  lemma UpdatesSnoc(prevE: seq<(string, Value)>, nextE: seq<(string, Value)>, j: nat)
    requires j < |nextE|
    ensures Updates(prevE, nextE[..j + 1]) ==
      Updates(prevE, nextE[..j]) + [(nextE[j].0, Lookup(prevE, nextE[j].0), nextE[j].1)]
  {
    var l := Updates(prevE, nextE[..j]) + [(nextE[j].0, Lookup(prevE, nextE[j].0), nextE[j].1)];
    var r := Updates(prevE, nextE[..j + 1]);
    assert |l| == |r|;
    forall i | 0 <= i < |r| ensures l[i] == r[i] {
      assert nextE[..j + 1][i] == nextE[i];
      if i < j {
        assert nextE[..j][i] == nextE[i];
      }
    }
  }

  /** The first loop of `diffProps`: unset every previous key the next props lack. */
  method UnsetMissing(start: Patched, prevE: seq<(string, Value)>, nextE: seq<(string, Value)>, svg: bool)
      returns (r: Patched)
    ensures r == ApplyVisits(start, Removals(prevE, nextE), svg)
  {
    r := start;
    var i := 0;
    while i < |prevE|
      invariant 0 <= i <= |prevE|
      invariant r == ApplyVisits(start, Removals(prevE[..i], nextE), svg)
    {
      var e := prevE[i];
      assert prevE[..i + 1][..i] == prevE[..i];
      if !HasKey(nextE, e.0) {
        ApplyVisitsSnoc(start, Removals(prevE[..i], nextE), (e.0, e.1, Null), svg);
        r := SetProperty(r.node, e.0, e.1, Null, svg, r.handlers, r.refs);
      }
      i := i + 1;
    }
    assert prevE[..i] == prevE;
  }

  /** The second loop of `diffProps`: set every next key against its previous value. */
  method SetAll(start: Patched, prevE: seq<(string, Value)>, nextE: seq<(string, Value)>, svg: bool)
      returns (r: Patched)
    ensures r == ApplyVisits(start, Updates(prevE, nextE), svg)
  {
    r := start;
    var j := 0;
    while j < |nextE|
      invariant 0 <= j <= |nextE|
      invariant r == ApplyVisits(start, Updates(prevE, nextE[..j]), svg)
    {
      var e := nextE[j];
      var v := (e.0, Lookup(prevE, e.0), e.1);
      UpdatesSnoc(prevE, nextE, j);
      ApplyVisitsSnoc(start, Updates(prevE, nextE[..j]), v, svg);
      r := SetProperty(r.node, e.0, Lookup(prevE, e.0), e.1, svg, r.handlers, r.refs);
      j := j + 1;
    }
    assert nextE[..j] == nextE;
  }

  /**
   * `diffProps(node, props, nextProps, handlers, isSvg)`: every previous key
   * missing from the next props is unset, then every next key is set.
   */
  method DiffProps(node: HostNode, prev: Props, next: Props, reg: Registry, svg: bool,
                   refs: map<Ref, NodeId>) returns (r: Patched)
    ensures r == ApplyVisits(Patched(node, reg, refs), Visits(prev, next), svg)
  {
    var start := Patched(node, reg, refs);
    var mid := UnsetMissing(start, prev.entries, next.entries, svg);
    r := SetAll(mid, prev.entries, next.entries, svg);
    ApplyVisitsAppend(start, Removals(prev.entries, next.entries), Updates(prev.entries, next.entries), svg);
  }

  /** `diffProps` visits every next key with its previous value, and every
      previous-only key with next value null; it visits nothing else. */
  lemma VisitsCover(prev: Props, next: Props, k: string)
    ensures HasKey(next.entries, k) ==>
      exists i :: 0 <= i < |Visits(prev, next)| &&
        Visits(prev, next)[i].0 == k && Visits(prev, next)[i].1 == Lookup(prev.entries, k)
    ensures HasKey(prev.entries, k) && !HasKey(next.entries, k) ==>
      exists v :: v in Visits(prev, next) && v.0 == k && v.2 == Null
    ensures forall v | v in Visits(prev, next) :: HasKey(prev.entries, v.0) || HasKey(next.entries, v.0)
  {
    if HasKey(next.entries, k) {
      NextVisited(prev, next, k);
    }
    if HasKey(prev.entries, k) && !HasKey(next.entries, k) {
      RemovalsCover(prev.entries, next.entries, k);
    }
    VisitedKeys(prev, next);
  }

  lemma NextVisited(prev: Props, next: Props, k: string)
    requires HasKey(next.entries, k)
    ensures var vs := Visits(prev, next);
      exists i :: 0 <= i < |vs| && vs[i].0 == k && vs[i].1 == Lookup(prev.entries, k)
  {
    var vs := Visits(prev, next);
    var rem := Removals(prev.entries, next.entries);
    var j :| 0 <= j < |next.entries| && next.entries[j].0 == k;
    assert vs[|rem| + j] == Updates(prev.entries, next.entries)[j];
  }

  lemma VisitedKeys(prev: Props, next: Props)
    ensures forall v | v in Visits(prev, next) :: HasKey(prev.entries, v.0) || HasKey(next.entries, v.0)
  {
    var vs := Visits(prev, next);
    var rem := Removals(prev.entries, next.entries);
    forall v | v in vs ensures HasKey(prev.entries, v.0) || HasKey(next.entries, v.0) {
      if v !in rem {
        var i :| 0 <= i < |vs| && vs[i] == v;
        assert i >= |rem|;
        assert next.entries[i - |rem|].0 == v.0;
      }
    }
  }

  lemma {:induction false} RemovalsCover(prevE: seq<(string, Value)>, nextE: seq<(string, Value)>, k: string)
    requires HasKey(prevE, k) && !HasKey(nextE, k)
    ensures exists v :: v in Removals(prevE, nextE) && v.0 == k && v.2 == Null
    decreases |prevE|
  {
    var init := prevE[..|prevE| - 1];
    var e := prevE[|prevE| - 1];
    if e.0 == k {
      assert (e.0, e.1, Null) in Removals(prevE, nextE);
    } else {
      var i :| 0 <= i < |prevE| && prevE[i].0 == k;
      assert init[i].0 == k;
      RemovalsCover(init, nextE, k);
      var v :| v in Removals(init, nextE) && v.0 == k && v.2 == Null;
      assert v in Removals(prevE, nextE);
    }
  }

  /** `diffProps` keeps the registry invariant: after any props diff, an event
      type is listened to with the node's registry iff the registry holds a handler. */
  lemma {:induction false} DiffPropsKeepsRegistry(p: Patched, visits: seq<Visit>, svg: bool)
    requires RegistryValid(p.node.listeners, p.handlers)
    ensures var q := ApplyVisits(p, visits, svg);
      RegistryValid(q.node.listeners, q.handlers) && q.handlers.ref == p.handlers.ref
      && q.node.id == p.node.id && q.node.children == p.node.children && q.node.records == p.node.records
    decreases |visits|
  {
    if visits != [] {
      DiffPropsKeepsRegistry(p, visits[..|visits| - 1], svg);
    }
  }
}

=== FILE: reconcile.dfy ===
/**
 * The reconciler of src/render.js: `diff`, which brings one host node in
 * line with a vnode, and `diffChildren`, which brings a parent's child list
 * in line with a flattened child array.  Both work on node values and
 * return the updated node or list; the state every call may extend (the
 * next fresh identity and the `current` slots of ref objects) is threaded
 * through as a `World`.
 */
module Reconcile {
  import opened Wrappers
  import opened Dom
  import opened Patch
  import opened ChildList

  /** Fresh identities for created nodes and handler registries, and the
      `current` slot of every ref object the `ref` prop has written. */
  datatype World = World(next: nat, refs: map<Ref, NodeId>)

  /** The live properties a created element exposes, by tag name (what
      `key in node` sees on a fresh element). */
  type Schema = map<string, map<string, Value>>

  predicate IsRaw(v: Value) {
    v.V? && v.vnode.vtype.RawNode?
  }

  predicate IsHost(v: Value) {
    v.V? && v.vnode.vtype == Tag("host")
  }

  /** What a flattened child array holds: text, numbers and vnodes other than `host`. */
  predicate ChildItem(v: Value) {
    ChildValue(v) && !IsHost(v)
  }

  /** The values `diff` accepts: text, a number, an object from outside the
      engine, or a vnode whose raw type is an element and whose children are
      child items, recursively. */
  predicate Renderable(v: Value)
    decreases v
  {
    match v
    case Str(_) => true
    case Num(_) => true
    case Foreign(_, _) => true
    case V(vn) =>
      && (vn.vtype.RawNode? ==> vn.vtype.node.kind == Element)
      && forall i | 0 <= i < |vn.children.items| ::
           ChildItem(vn.children.items[i]) && Renderable(vn.children.items[i])
    case _ => false
  }

  predicate NoRaw(items: seq<Value>) {
    forall i | 0 <= i < |items| :: !IsRaw(items[i])
  }

  /** An ASCII upper-case letter in lower case; any other character as it is. */
  function LowerChar(c: char): char {
    if 'A' <= c <= 'Z' then (c as int + 32) as char else c
  }

  /** The local name `createElement` gives an element of an HTML document:
      its name with ASCII upper-case letters in lower case. */
  function HtmlName(name: string): (r: string)
    ensures |r| == |name|
  {
    seq(|name|, k requires 0 <= k < |name| => LowerChar(name[k]))
  }

  /** `createElement(type)` / `createElementNS(svg, type)`: the HTML name is
      lower-cased, the SVG name is kept as written. */
  function NewElement(nid: NodeId, name: string, svg: bool, schema: Schema): (r: HostNode)
    ensures r.id == nid && r.kind == Element
    ensures r.localName == if svg then name else HtmlName(name)
  {
    var local := if svg then name else HtmlName(name);
    HostNode(nid, Element, local, svg, "", [], None, map[],
             if local in schema then schema[local] else map[], map[], "", {}, Undefined, map[])
  }

  /** A name keeps its spelling under `createElement` exactly when it has no
      ASCII upper-case letter. */
  lemma HtmlNameKept(name: string)
    ensures HtmlName(name) == name <==> forall k | 0 <= k < |name| :: !('A' <= name[k] <= 'Z')
  {
    if HtmlName(name) == name {
      forall k | 0 <= k < |name| ensures !('A' <= name[k] <= 'Z') {
        assert HtmlName(name)[k] == name[k];
      }
    }
  }

  /** The element `diff` created for tag `name` is kept by the next `diff`
      with a vnode of that same tag exactly when its `localName` came out as
      written: always for SVG, and for HTML only when the tag has no
      upper-case ASCII letter.  A tag such as `"DIV"` gets a new element on
      every render. */
  lemma CreatedKept(nid: NodeId, name: string, svg: bool, schema: Schema, vn: VNode)
    requires vn.vtype == Tag(name) && name != "host"
    ensures !IsNew(Some(NewElement(nid, name, svg, schema)), V(vn)) <==>
      svg || forall k | 0 <= k < |name| :: !('A' <= name[k] <= 'Z')
  {
    HtmlNameKept(name);
  }

  /** `createTextNode(data)`. */
  function NewText(nid: NodeId, data: string): HostNode {
    HostNode(nid, Text, "", false, data, [], None, map[], map[], map[], "", {}, Undefined, map[])
  }

  /** The node's record for this pass already holds this very vnode. */
  predicate FastPath(id: PassId, node: Option<HostNode>, v: Value) {
    node.Some? && id in node.value.records && v.V? && node.value.records[id].vnode.ref == v.vnode.ref
  }

  /** `isNewNode`: whether `diff` must create (or, for a raw type, adopt) a node. */
  predicate IsNew(node: Option<HostNode>, v: Value) {
    match v
    case V(vn) =>
      (match vn.vtype
       case Tag(name) => name != "host" && (node.None? || node.value.kind == Text || node.value.localName != name)
       case RawNode(raw) => node.None? || node.value.id != raw.id)
    case _ => node.None? || node.value.kind == Element
  }

  /** A node shows a child item: text with its string, or the record of the vnode. */
  predicate Reconciled(n: HostNode, v: Value, id: PassId) {
    match v
    case V(vn) => id in n.records && n.records[id].vnode.ref == vn.ref
    case _ => n.kind == Text && n.data == ToText(v)
  }

  /** The props and children the node last rendered under `id`, or the empty ones. */
  function OldProps(t: HostNode, id: PassId): Props {
    if id in t.records then t.records[id].vnode.props else EmptyProps
  }

  function OldChildren(t: HostNode, id: PassId): Children {
    if id in t.records then t.records[id].vnode.children else EmptyChildren
  }

  /** The child list `diffChildren` works on: the shadow root's or the node's own. */
  function Slot(n: HostNode, shadow: bool): seq<HostNode> {
    if shadow then n.shadowRoot.GetOr([]) else n.children
  }

  /** Whether `diff` keeps the node it is given: its record already holds
      this very vnode, or the vnode does not call for a new node. */
  predicate Reused(id: PassId, node: Option<HostNode>, v: Value) {
    node.Some? && (FastPath(id, node, v) || !IsNew(node, v))
  }

  /** `isSvg || vnode.type == "svg"`. */
  function SvgFor(isSvg: bool, v: Value): bool {
    isSvg || (v.V? && v.vnode.vtype == Tag("svg"))
  }

  /** The node `diff` brings in line with a vnode: the node given, the raw
      node the vnode names, or a new element with identity `next`. */
  function Target(node: Option<HostNode>, v: Value, svg: bool, schema: Schema, next: nat): HostNode
    requires v.V? && (IsHost(v) ==> node.Some?)
  {
    if !IsNew(node, v) then node.value
    else match v.vnode.vtype
      case RawNode(raw) => raw
      case Tag(name) => NewElement(next, name, svg, schema)
  }

  /** The node once `attachShadow` has run for a vnode that asks for a shadow root. */
  function Attached(t: HostNode, vn: VNode): HostNode {
    if Truthy(vn.shadow) && t.shadowRoot.None? then t.(shadowRoot := Some([])) else t
  }

  /** `isNewNode || !node[id] ? {} : node[id].handlers`, a new registry having identity `next`. */
  function StartHandlers(t: HostNode, id: PassId, isNew: bool, next: nat): Registry {
    if isNew || id !in t.records then Registry(next, false, map[]) else t.records[id].handlers
  }

  /** A registry whose identity no listener of the node uses is valid while empty. */
  lemma FreshRegistry(listeners: set<(Ref, string)>, next: nat)
    ensures (forall x | x in listeners :: x.0 < next) ==> RegistryValid(listeners, Registry(next, false, map[]))
  {
  }

  /** The node, registry and ref slots after `if (vnode.props != oldVnodeProps) diffProps(...)`. */
  function PropsOutcome(n: HostNode, oldProps: Props, props: Props, h: Registry, refs: map<Ref, NodeId>,
                        svg: bool): Patched {
    if props.ref == oldProps.ref then Patched(n, h, refs)
    else ApplyVisits(Patched(n, h, refs), Visits(oldProps, props), svg)
  }

  /** `r`, with registry `rh`, shows what a props patch produced: the same
      attributes, live properties, style, listeners, key and registry. */
  predicate PropsShown(r: HostNode, rh: Registry, q: Patched) {
    && r.attributes == q.node.attributes && r.properties == q.node.properties
    && r.style == q.node.style && r.cssText == q.node.cssText
    && r.listeners == q.node.listeners && r.key == q.node.key && rh == q.handlers
  }

  /** The node the keyed index records for a child's key, if any. */
  function Matched(index: map<Value, Option<HostNode>>, v: Value): Option<HostNode> {
    var k := KeyOf(v);
    if k in index then index[k] else None
  }

  /** What follows position `i` once a keyed child is placed there: the
      children that stood from `i` on, without the node `m` recorded for its
      key, which moved forward to `i`. */
  function Rest(l: seq<HostNode>, i: nat, m: Option<HostNode>): seq<HostNode>
    requires i <= |l|
  {
    if m.Some? then Detach(l[i..], m.value.id) else l[i..]
  }

  /** Every child declares a key, and no two declare the same one. */
  predicate KeysDistinct(items: seq<Value>) {
    && (forall i | 0 <= i < |items| :: !Nullish(KeyOf(items[i])))
    && (forall i, j | 0 <= i < j < |items| :: KeyOf(items[i]) != KeyOf(items[j]))
  }

  /** What a position of the new child list holds for child item `v` whose
      candidate node was `m`: a node showing `v`, which is `m` itself when
      `diff` keeps it and otherwise a node created in this pass (identity
      at least `w0`). */
  predicate PlacedAt(n: HostNode, v: Value, m: Option<HostNode>, id: PassId, w0: nat) {
    Reconciled(n, v, id) && if Reused(id, m, v) then n.id == m.value.id else w0 <= n.id
  }

  /**
   * The outcome of `diffChildren` on the child list `list`, for a list
   * without repeated nodes whose identities are all below `w0`, and child
   * items none of which is a raw node.  Unkeyed, the new list has exactly one
   * node per child, the `k`-th placed for the `k`-th child with the old
   * `k`-th node as its candidate.  Keyed, every old child whose key is not in
   * the index is gone; and when every child has its own key, the first
   * `|items|` positions hold, in order, the node placed for each child with
   * the node the index recorded for its key as its candidate.
   */
  ghost predicate ChildrenDiffed(id: PassId, list: seq<HostNode>, children: Children, w0: nat, w1: nat,
                                 r: seq<HostNode>) {
    && UnkeyedDiffed(id, list, children, w0, w1, r)
    && KeyedPruned(list, children, w0, r)
    && KeyedPlaced(id, list, children, w0, w1, r)
    && KeyedExact(list, children, w0, r)
  }

  /** Unkeyed: one node per child, each placed with the old node at its position as candidate. */
  ghost predicate UnkeyedDiffed(id: PassId, list: seq<HostNode>, children: Children, w0: nat, w1: nat,
                                r: seq<HostNode>) {
    var items := children.items;
    children.keyed.None? && FreshBelow(list, w0) && NoRaw(items) ==>
      && |r| == |items| && FreshBelow(r, w1)
      && forall k | 0 <= k < |r| :: PlacedAt(r[k], items[k], At(list, k), id, w0)
  }

  /** Keyed: no old child whose key is not in the index survives. */
  ghost predicate KeyedPruned(list: seq<HostNode>, children: Children, w0: nat, r: seq<HostNode>) {
    children.keyed.Some? && FreshBelow(list, w0) && NoRaw(children.items) ==>
      forall x | x in list && x.key !in children.keyed.value :: x.id !in Ids(r)
  }

  /** Keyed, every child with its own key: position `k` holds the node placed
      for child `k`, with the node recorded for its key as candidate. */
  ghost predicate KeyedPlaced(id: PassId, list: seq<HostNode>, children: Children, w0: nat, w1: nat,
                              r: seq<HostNode>) {
    var items := children.items;
    children.keyed.Some? && FreshBelow(list, w0) && NoRaw(items) && KeysDistinct(items) ==>
      && |items| <= |r| && FreshBelow(r, w1)
      && forall k | 0 <= k < |items| ::
           PlacedAt(r[k], items[k], Matched(Indexed(list, children.keyed.value), items[k]), id, w0)
  }

  /** Keyed, every child with its own key, the kept old children with
      distinct keys, and every key of the index declared by a child: the
      placed children are all that is left. */
  ghost predicate KeyedExact(list: seq<HostNode>, children: Children, w0: nat, r: seq<HostNode>) {
    OneForOne(list, children, w0) ==> |r| == |children.items|
  }

  /** The keyed case in which every kept old child is matched by exactly one child. */
  ghost predicate OneForOne(list: seq<HostNode>, children: Children, w0: nat) {
    var items := children.items;
    && children.keyed.Some? && FreshBelow(list, w0) && NoRaw(items) && KeysDistinct(items)
    && KeptKeysApart(list, children.keyed.value) && children.keyed.value <= KeysOf(items)
  }

  /**
   * `diff(id, node, vnode, isSvg)`: the node for `v`, which is `node` itself
   * updated, a node created for it, or the raw node the vnode names.
   */
  method Diff(id: PassId, node: Option<HostNode>, v: Value, isSvg: bool, schema: Schema, w: World)
      returns (r: Option<HostNode>, w': World)
    requires Renderable(v)
    requires IsHost(v) ==> node.Some?
    ensures w.next <= w'.next
    ensures FastPath(id, node, v) || v.Foreign? ==> r == node && w' == w
    ensures !v.Foreign? ==> r.Some?
    ensures ChildItem(v) && !IsRaw(v) ==> r.Some? && Reconciled(r.value, v, id)
    ensures Reused(id, node, v) ==> r.Some? && r.value.id == node.value.id
    ensures !v.Foreign? && !Reused(id, node, v) ==>
      r.Some? && if IsRaw(v) then r.value.id == v.vnode.vtype.node.id else r.value.id == w.next < w'.next
    ensures (v.Str? || v.Num?) && node.Some? && node.value.kind == Text ==>
      r == Some(node.value.(data := ToText(v))) && w' == w
    ensures (v.Str? || v.Num?) && !(node.Some? && node.value.kind == Text) ==>
      r == Some(NewText(w.next, ToText(v))) && w' == w.(next := w.next + 1)
    ensures v.V? && !FastPath(id, node, v) && r.Some? && r.value.kind == Element ==>
      id in r.value.records && r.value.records[id].vnode == v.vnode
    ensures v.V? && !FastPath(id, node, v) ==> ElementDiffed(id, node, v, isSvg, schema, w, r, w')
    decreases v, 1
  {
    if FastPath(id, node, v) || v.Foreign? {
      return node, w;
    }
    var svg := SvgFor(isSvg, v);
    var isNew := IsNew(node, v);
    if !v.V? {
      if isNew {
        return Some(NewText(w.next, ToText(v))), w.(next := w.next + 1);
      }
      // `node.data = vnode` when the text differs; writing an equal text changes nothing
      return Some(node.value.(data := ToText(v))), w;
    }
    r, w' := DiffVNode(id, node, v, isSvg, schema, w);
  }

  /** What `diff` promises for a vnode whose node is an element: the props
      outcome of `diffProps` and the children outcome of `diffChildren`, on the
      node's own child list or on its shadow root's. */
  ghost predicate ElementDiffed(id: PassId, node: Option<HostNode>, v: Value, isSvg: bool, schema: Schema,
                                w: World, r: Option<HostNode>, w': World)
    requires v.V? && (IsHost(v) ==> node.Some?)
  {
    var svg := SvgFor(isSvg, v);
    var t := Target(node, v, svg, schema, w.next);
    var next := if IsNew(node, v) && !IsRaw(v) then w.next + 1 else w.next;
    t.kind == Element ==>
      r.Some? && ElementOutcome(id, t, v.vnode, IsNew(node, v), svg, next, w.refs, r.value, w'.next)
  }

  /** What the element part of `diff` promises for element `t`, handler
      registries and node ids being handed out from `next` on: `r` holds a
      record for `id`; its attributes, properties, style, listeners, key and
      registry are what `diffProps` gives from the old record's props when the
      props object changed, and unchanged otherwise; its child list (the shadow
      root's when the vnode asks for one) is untouched when the children array
      is the one last rendered, and the `diffChildren` result otherwise. */
  ghost predicate ElementOutcome(id: PassId, t: HostNode, vn: VNode, isNew: bool, svg: bool, next: nat,
                                 refs: map<Ref, NodeId>, r: HostNode, next': nat) {
    var shadow := Truthy(vn.shadow);
    && id in r.records
    && PropsShown(r, r.records[id].handlers,
         PropsOutcome(Attached(t, vn), OldProps(t, id), vn.props, StartHandlers(t, id, isNew, next), refs, svg))
    && (vn.children.ref == OldChildren(t, id).ref ==> Slot(r, shadow) == Slot(Attached(t, vn), shadow))
    && (vn.children.ref != OldChildren(t, id).ref ==>
          ChildrenDiffed(id, Slot(Attached(t, vn), shadow), vn.children,
                         if isNew || id !in t.records then next + 1 else next, next', Slot(r, shadow)))
  }

  /** `diff` for a vnode past the fast path: the node it works on, and the
      element part when that node is an element. */
  method DiffVNode(id: PassId, node: Option<HostNode>, v: Value, isSvg: bool, schema: Schema, w: World)
      returns (r: Option<HostNode>, w': World)
    requires v.V? && Renderable(v) && !FastPath(id, node, v)
    requires IsHost(v) ==> node.Some?
    ensures w.next <= w'.next && r.Some?
    ensures ChildItem(v) && !IsRaw(v) ==> Reconciled(r.value, v, id)
    ensures Reused(id, node, v) ==> r.value.id == node.value.id
    ensures !Reused(id, node, v) ==>
      if IsRaw(v) then r.value.id == v.vnode.vtype.node.id else r.value.id == w.next < w'.next
    ensures r.value.kind == Element ==> id in r.value.records && r.value.records[id].vnode == v.vnode
    ensures ElementDiffed(id, node, v, isSvg, schema, w, r, w')
    decreases v, 0
  {
    var svg := SvgFor(isSvg, v);
    var isNew := IsNew(node, v);
    var target := Target(node, v, svg, schema, w.next);
    w' := if isNew && !IsRaw(v) then w.(next := w.next + 1) else w;
    if target.kind == Text {
      // a `host` vnode given a text node
      return Some(target.(data := ToText(v))), w';
    }
    ghost var next, refs := w'.next, w'.refs;
    assert next == (if IsNew(node, v) && !IsRaw(v) then w.next + 1 else w.next) && refs == w.refs;
    var n;
    n, w' := DiffElement(id, target, v.vnode, isNew, svg, schema, w');
    r := Some(n);
    assert ElementOutcome(id, target, v.vnode, isNew, svg, next, refs, n, w'.next);
  }

  /**
   * The element part of `diff`: pick the handler registry, attach the shadow
   * root, diff the props and the children when they are not the ones last
   * rendered, and record `{vnode, handlers}` under `id`.
   */
  method DiffElement(id: PassId, t: HostNode, vn: VNode, isNew: bool, svg: bool, schema: Schema, w: World)
      returns (r: HostNode, w': World)
    requires t.kind == Element
    requires forall i | 0 <= i < |vn.children.items| ::
      ChildItem(vn.children.items[i]) && Renderable(vn.children.items[i])
    ensures w.next <= w'.next
    ensures r.id == t.id && r.kind == Element && r.localName == t.localName
    ensures id in r.records && r.records == t.records[id := Record(vn, r.records[id].handlers)]
    ensures isNew || id !in t.records ==> r.records[id].handlers.ref == w.next < w'.next
    ensures !isNew && id in t.records ==> r.records[id].handlers.ref == t.records[id].handlers.ref
    ensures !isNew && id in t.records && RegistryValid(t.listeners, t.records[id].handlers) ==>
      RegistryValid(r.listeners, r.records[id].handlers)
    ensures (isNew || id !in t.records) && (forall x | x in t.listeners :: x.0 < w.next) ==>
      RegistryValid(r.listeners, r.records[id].handlers)
    ensures Truthy(vn.shadow) ==> r.shadowRoot.Some?
    ensures ElementOutcome(id, t, vn, isNew, svg, w.next, w.refs, r, w'.next)
    decreases vn, 1
  {
    var handlers := StartHandlers(t, id, isNew, w.next);
    var w1 := if isNew || id !in t.records then w.(next := w.next + 1) else w;
    var n := Attached(t, vn);
    assert n.records == t.records && n.listeners == t.listeners && n.id == t.id && n.localName == t.localName;
    FreshRegistry(n.listeners, w.next);
    r, w' := Refresh(id, n, vn, handlers, OldProps(t, id), OldChildren(t, id), svg, schema, w1);
  }

  /** The rest of the element part of `diff`, once the registry is chosen and
      the shadow root attached: props, children, and the record. */
  method Refresh(id: PassId, n: HostNode, vn: VNode, handlers: Registry, oldProps: Props, oldChildren: Children,
                 svg: bool, schema: Schema, w: World)
      returns (r: HostNode, w': World)
    requires Truthy(vn.shadow) ==> n.shadowRoot.Some?
    requires forall i | 0 <= i < |vn.children.items| ::
      ChildItem(vn.children.items[i]) && Renderable(vn.children.items[i])
    ensures w.next <= w'.next
    ensures r.id == n.id && r.kind == n.kind && r.localName == n.localName
    ensures id in r.records && r.records == n.records[id := Record(vn, r.records[id].handlers)]
    ensures r.records[id].handlers.ref == handlers.ref
    ensures RegistryValid(n.listeners, handlers) ==> RegistryValid(r.listeners, r.records[id].handlers)
    ensures Truthy(vn.shadow) ==> r.shadowRoot.Some? && r.children == n.children
    ensures !Truthy(vn.shadow) ==> r.shadowRoot == n.shadowRoot
    ensures PropsShown(r, r.records[id].handlers, PropsOutcome(n, oldProps, vn.props, handlers, w.refs, svg))
    ensures vn.children.ref == oldChildren.ref ==> Slot(r, Truthy(vn.shadow)) == Slot(n, Truthy(vn.shadow))
    ensures vn.children.ref != oldChildren.ref ==>
      ChildrenDiffed(id, Slot(n, Truthy(vn.shadow)), vn.children, w.next, w'.next, Slot(r, Truthy(vn.shadow)))
    decreases vn, 0
  {
    var p := PatchProps(n, oldProps, vn.props, handlers, svg, w.refs);
    w' := w.(refs := p.refs);
    var kids;
    kids, w' := PatchChildren(id, Slot(p.node, Truthy(vn.shadow)), oldChildren, vn.children, svg, schema, w');
    var record := Record(vn, p.handlers);
    if Truthy(vn.shadow) {
      r := p.node.(shadowRoot := Some(kids), records := p.node.records[id := record]);
    } else {
      r := p.node.(children := kids, records := p.node.records[id := record]);
    }
  }

  /** `if (vnode.props != oldVnodeProps) diffProps(...)`: an unchanged props
      object leaves everything alone, a changed one applies every
      `setProperty` call of `diffProps`. */
  method PatchProps(n: HostNode, oldProps: Props, props: Props, handlers: Registry, svg: bool,
                    refs: map<Ref, NodeId>) returns (p: Patched)
    ensures p == PropsOutcome(n, oldProps, props, handlers, refs, svg)
    ensures p.node.id == n.id && p.node.kind == n.kind && p.node.localName == n.localName
    ensures p.node.children == n.children && p.node.shadowRoot == n.shadowRoot
    ensures p.node.records == n.records && p.handlers.ref == handlers.ref
    ensures RegistryValid(n.listeners, handlers) ==> RegistryValid(p.node.listeners, p.handlers)
  {
    p := Patched(n, handlers, refs);
    if props.ref != oldProps.ref {
      p := DiffProps(n, oldProps, props, handlers, svg, refs);
      if RegistryValid(n.listeners, handlers) {
        DiffPropsKeepsRegistry(Patched(n, handlers, refs), Visits(oldProps, props), svg);
      }
    }
  }

  /** `if (vnode.children != oldVnodeChildren) diffChildren(id, parent, children, isSvg)`,
      on the child list of the parent (the shadow root's when the vnode asks for one). */
  method PatchChildren(id: PassId, list: seq<HostNode>, oldChildren: Children, children: Children,
                       svg: bool, schema: Schema, w: World)
      returns (r: seq<HostNode>, w': World)
    requires forall i | 0 <= i < |children.items| ::
      ChildItem(children.items[i]) && Renderable(children.items[i])
    ensures w.next <= w'.next
    ensures children.ref == oldChildren.ref ==> r == list && w' == w
    ensures children.ref != oldChildren.ref ==> ChildrenDiffed(id, list, children, w.next, w'.next, r)
    decreases children, 1
  {
    r, w' := list, w;
    if children.ref != oldChildren.ref {
      r, w' := DiffChildren(id, list, children, svg, schema, w);
    }
  }

  /**
   * `diffChildren(id, parent, children, isSvg)`: the parent's child list
   * after the first loop has pruned it and the second has diffed every
   * child into position.
   */
  method DiffChildren(id: PassId, list: seq<HostNode>, children: Children, svg: bool, schema: Schema, w: World)
      returns (r: seq<HostNode>, w': World)
    requires forall i | 0 <= i < |children.items| ::
      ChildItem(children.items[i]) && Renderable(children.items[i])
    ensures w.next <= w'.next
    ensures ChildrenDiffed(id, list, children, w.next, w'.next, r)
    decreases children, 0
  {
    var items := children.items;
    var l, index := Prune(list, |items|, children.keyed);
    ghost var m := |l|;
    ghost var kept := Ids(l);
    ghost var index0 := index;
    ghost var unkeyed := children.keyed.None? && FreshBelow(list, w.next) && NoRaw(items);
    ghost var keyed := children.keyed.Some? && FreshBelow(list, w.next) && NoRaw(items);
    ghost var ordered := keyed && KeysDistinct(items);
    SecondLoopStart(id, list, children, l, index, w.next);
    w' := w;
    var i := 0;
    while i < |items|
      invariant 0 <= i <= |items|
      invariant w.next <= w'.next
      invariant unkeyed ==> UnkeyedLoop(id, list, items, l, i, m, w.next, w'.next)
      invariant keyed ==> KeyedLoop(l, index, kept, w.next)
      invariant ordered ==> OrderedLoop(id, list, children.keyed.value, items, l, index, i, w.next, w'.next)
      invariant OneForOne(list, children, w.next) ==> TailLoop(Indexed(list, children.keyed.value), items, l, i)
    {
      l, index, w' := SecondTurn(id, list, children, l, index, i, svg, schema, w', m, kept, w.next);
      i := i + 1;
    }
    r := l;
    SecondLoopDone(id, list, children, r, index, kept, m, w.next, w'.next);
  }

  /** What the first loop leaves is a state of the second loop before its
      first turn. */
  lemma SecondLoopStart(id: PassId, list: seq<HostNode>, children: Children, l: seq<HostNode>,
                        index: map<Value, Option<HostNode>>, w0: nat)
    requires children.keyed.None? ==>
      l == list[..if |list| > |children.items| then |children.items| else |list|]
    requires children.keyed.Some? ==>
      l == Kept(list, children.keyed.value) && index == Indexed(list, children.keyed.value)
    ensures children.keyed.None? && FreshBelow(list, w0) && NoRaw(children.items) ==>
      UnkeyedLoop(id, list, children.items, l, 0, |l|, w0, w0)
    ensures children.keyed.Some? && FreshBelow(list, w0) && NoRaw(children.items) ==>
      KeyedLoop(l, index, Ids(l), w0) && (forall x | x in Ids(l) :: x < w0)
    ensures children.keyed.Some? && FreshBelow(list, w0) && NoRaw(children.items) && KeysDistinct(children.items) ==>
      OrderedLoop(id, list, children.keyed.value, children.items, l, index, 0, w0, w0)
    ensures OneForOne(list, children, w0) ==>
      TailLoop(Indexed(list, children.keyed.value), children.items, l, 0)
  {
    var kept := Ids(l);
    if children.keyed.Some? && FreshBelow(list, w0) && NoRaw(children.items) {
      PrunedIndex(list, children.keyed.value, w0);
      assert forall x | x in kept :: x < w0;
      assert forall k | k in index && index[k].Some? :: index[k].value.id in kept;
    }
    if children.keyed.None? && FreshBelow(list, w0) && NoRaw(children.items) {
      assert forall k | 0 <= k < |l| :: l[k] == list[k];
      assert forall x | x in l :: x in list;
    }
    if OneForOne(list, children, w0) {
      TailStart(list, children.keyed.value, children.items);
    }
  }

  /** Once every child is placed, the state of the second loop is the
      outcome `diffChildren` promises. */
  lemma SecondLoopDone(id: PassId, list: seq<HostNode>, children: Children, l: seq<HostNode>,
                       index: map<Value, Option<HostNode>>, kept: set<NodeId>, m: nat, w0: nat, w1: nat)
    requires children.keyed.None? && FreshBelow(list, w0) && NoRaw(children.items) ==>
      m <= |children.items| && UnkeyedLoop(id, list, children.items, l, |children.items|, m, w0, w1)
    requires children.keyed.Some? && FreshBelow(list, w0) && NoRaw(children.items) ==>
      KeyedLoop(l, index, kept, w0) && kept == Ids(Kept(list, children.keyed.value))
    requires children.keyed.Some? && FreshBelow(list, w0) && NoRaw(children.items) && KeysDistinct(children.items) ==>
      OrderedLoop(id, list, children.keyed.value, children.items, l, index, |children.items|, w0, w1)
    requires OneForOne(list, children, w0) ==>
      TailLoop(Indexed(list, children.keyed.value), children.items, l, |children.items|)
    ensures ChildrenDiffed(id, list, children, w0, w1, l)
  {
    if children.keyed.Some? && FreshBelow(list, w0) && NoRaw(children.items) {
      PrunedGone(list, children.keyed.value, l, kept, w0);
    }
    if OneForOne(list, children, w0) {
      TailEnd(Indexed(list, children.keyed.value), children.items, l);
    }
  }

  /** After the keyed second loop, which only adds nodes of this pass to the
      kept ones, no old child whose key is not in the index is left. */
  lemma PrunedGone(list: seq<HostNode>, keys: set<Value>, r: seq<HostNode>, kept: set<NodeId>, w0: nat)
    requires FreshBelow(list, w0) && kept == Ids(Kept(list, keys))
    requires forall x | x in r :: x.id in kept || w0 <= x.id
    ensures forall x | x in list && x.key !in keys :: x.id !in Ids(r)
  {
    KeptMembers(list, keys);
    forall x | x in list && x.key !in keys ensures x.id !in Ids(r) {
      if x.id in kept {
        var y :| y in Kept(list, keys) && y.id == x.id;
        SameId(list, x, y);
      }
    }
  }

  /** The state of the unkeyed second loop before turn `i`: the list holds
      the placed nodes, then the old nodes still to be diffed. */
  ghost predicate UnkeyedLoop(id: PassId, list: seq<HostNode>, items: seq<Value>, l: seq<HostNode>, i: nat,
                              m: nat, w0: nat, w1: nat) {
    && |l| == (if i < m then m else i)
    && FreshBelow(l, w1)
    && (forall k | 0 <= k < i && k < |items| :: PlacedAt(l[k], items[k], At(list, k), id, w0))
    && (forall k | i <= k < |l| :: k < |list| && l[k] == list[k])
  }

  /** The keyed second loop only holds kept nodes and nodes of this pass. */
  ghost predicate KeyedLoop(l: seq<HostNode>, index: map<Value, Option<HostNode>>, kept: set<NodeId>, w0: nat) {
    && (forall x | x in l :: x.id in kept || w0 <= x.id)
    && (forall k | k in index && index[k].Some? :: index[k].value.id in kept)
  }

  /** The state of the keyed second loop before turn `i`, when every child
      has its own key: the first `i` positions hold the placed nodes, and the
      index entries for the children still to come are as the first loop
      left them. */
  ghost predicate OrderedLoop(id: PassId, list: seq<HostNode>, keys: set<Value>, items: seq<Value>,
                              l: seq<HostNode>, index: map<Value, Option<HostNode>>, i: nat, w0: nat, w1: nat) {
    var index0 := Indexed(list, keys);
    && i <= |l| && FreshBelow(l, w1) && index.Keys == index0.Keys
    && (forall j | i <= j < |items| :: Matched(index, items[j]) == Matched(index0, items[j]))
    && (forall k | 0 <= k < i && k < |items| :: PlacedAt(l[k], items[k], Matched(index0, items[k]), id, w0))
  }

  /** `x` is the node the first loop recorded for the key of a child at
      position `i` or later. */
  ghost predicate Pending(index0: map<Value, Option<HostNode>>, items: seq<Value>, i: int, x: HostNode) {
    exists j | 0 <= j && i <= j < |items| :: Matched(index0, items[j]) == Some(x)
  }

  /** The keyed second loop before turn `i`: every node from position `i` on
      is the one recorded for a child still to come. */
  ghost predicate TailLoop(index0: map<Value, Option<HostNode>>, items: seq<Value>, l: seq<HostNode>, i: nat) {
    forall k | i <= k < |l| :: Pending(index0, items, i, l[k])
  }

  /** Before the keyed second loop: with distinct kept keys, all declared by
      the children, every kept node is recorded for some child. */
  lemma TailStart(list: seq<HostNode>, keys: set<Value>, items: seq<Value>)
    requires KeptKeysApart(list, keys) && keys <= KeysOf(items)
    ensures TailLoop(Indexed(list, keys), items, Kept(list, keys), 0)
  {
    var l, index0 := Kept(list, keys), Indexed(list, keys);
    KeptMembers(list, keys);
    IndexedRecords(list, keys);
    forall k | 0 <= k < |l| ensures Pending(index0, items, 0, l[k]) {
      var x := l[k];
      assert x in l && x.key in KeysOf(items);
      var j :| 0 <= j < |items| && KeyOf(items[j]) == x.key;
      assert Matched(index0, items[j]) == Some(x);
    }
  }

  /** A keyed turn that places child `i` and leaves the rest without its
      recorded node keeps every later node recorded for a later child. */
  lemma TailTurn(index0: map<Value, Option<HostNode>>, items: seq<Value>, l: seq<HostNode>, l': seq<HostNode>, i: nat)
    requires i < |items| && i <= |l| && i < |l'| && TailLoop(index0, items, l, i)
    requires l' == l[..i] + [l'[i]] + Rest(l, i, Matched(index0, items[i]))
    ensures TailLoop(index0, items, l', i + 1)
  {
    var m := Matched(index0, items[i]);
    var rest := Rest(l, i, m);
    forall k | i + 1 <= k < |l'| ensures Pending(index0, items, i + 1, l'[k]) {
      var x := l'[k];
      assert x == rest[k - i - 1];
      assert x in l[i..] && (m.Some? ==> x.id != m.value.id);
      var q :| 0 <= q < |l[i..]| && l[i..][q] == x;
      assert l[i + q] == x;
      var j :| 0 <= j && i <= j < |items| && Matched(index0, items[j]) == Some(x);
      assert j != i;
    }
  }

  /** After the keyed second loop no node is recorded for a child to come,
      so nothing is left after the placed children. */
  lemma TailEnd(index0: map<Value, Option<HostNode>>, items: seq<Value>, l: seq<HostNode>)
    requires TailLoop(index0, items, l, |items|)
    ensures |l| <= |items|
  {
    if |l| > 0 {
      var x := l[|l| - 1];
      assert |l| - 1 >= |items| ==> Pending(index0, items, |items|, x);
    }
  }

  /** One turn of the second loop of `diffChildren`, with the loop's state. */
  method SecondTurn(id: PassId, list: seq<HostNode>, children: Children, l: seq<HostNode>,
                    index: map<Value, Option<HostNode>>, i: nat, svg: bool, schema: Schema, w: World,
                    ghost m: nat, ghost kept: set<NodeId>, ghost w0: nat)
      returns (l': seq<HostNode>, index': map<Value, Option<HostNode>>, w': World)
    requires i < |children.items|
    requires forall k | 0 <= k < |children.items| ::
      ChildItem(children.items[k]) && Renderable(children.items[k])
    requires w0 <= w.next
    requires children.keyed.None? && FreshBelow(list, w0) && NoRaw(children.items) ==>
      m == (if |list| > |children.items| then |children.items| else |list|)
      && UnkeyedLoop(id, list, children.items, l, i, m, w0, w.next)
    requires children.keyed.Some? && FreshBelow(list, w0) && NoRaw(children.items) ==>
      KeyedLoop(l, index, kept, w0) && (forall x | x in kept :: x < w0)
    requires children.keyed.Some? && FreshBelow(list, w0) && NoRaw(children.items) && KeysDistinct(children.items) ==>
      OrderedLoop(id, list, children.keyed.value, children.items, l, index, i, w0, w.next)
    requires OneForOne(list, children, w0) ==>
      TailLoop(Indexed(list, children.keyed.value), children.items, l, i)
    ensures w.next <= w'.next
    ensures children.keyed.None? && FreshBelow(list, w0) && NoRaw(children.items) ==>
      UnkeyedLoop(id, list, children.items, l', i + 1, m, w0, w'.next)
    ensures children.keyed.Some? && FreshBelow(list, w0) && NoRaw(children.items) ==>
      KeyedLoop(l', index', kept, w0)
    ensures children.keyed.Some? && FreshBelow(list, w0) && NoRaw(children.items) && KeysDistinct(children.items) ==>
      OrderedLoop(id, list, children.keyed.value, children.items, l', index', i + 1, w0, w'.next)
    ensures OneForOne(list, children, w0) ==>
      TailLoop(Indexed(list, children.keyed.value), children.items, l', i + 1)
    decreases children, 0, i
  {
    var items := children.items;
    ghost var unkeyed := children.keyed.None? && FreshBelow(list, w0) && NoRaw(items);
    ghost var ordered := children.keyed.Some? && FreshBelow(list, w0) && NoRaw(items) && KeysDistinct(items);
    if unkeyed {
      assert At(l, i) == At(list, i);
    }
    if ordered {
      KeyedTurn(id, list, children.keyed.value, items, l, i, w0);
    }
    l', index', w' := Place(id, l, index, i, items[i], children.keyed.Some?, svg, schema, w, kept, w0);
    if ordered {
      PrefixKept(l, l', i);
      LaterMatches(index, index', items, i);
    }
    if OneForOne(list, children, w0) {
      TailTurn(Indexed(list, children.keyed.value), items, l, l', i);
    }
  }

  lemma PrefixKept(l: seq<HostNode>, l': seq<HostNode>, i: nat)
    requires i <= |l| && i <= |l'| && l'[..i] == l[..i]
    ensures forall k | 0 <= k < i :: l'[k] == l[k]
  {
    assert forall k | 0 <= k < i :: l'[..i][k] == l'[k] && l[..i][k] == l[k];
  }

  /** A turn that touches only the index entry of child `i` leaves the
      matches of the later children, whose keys differ, as they were. */
  lemma LaterMatches(index: map<Value, Option<HostNode>>, index': map<Value, Option<HostNode>>,
                     items: seq<Value>, i: nat)
    requires KeysDistinct(items) && i < |items|
    requires index'.Keys == index.Keys
    requires forall k | k in index && k != KeyOf(items[i]) :: index'[k] == index[k]
    ensures forall j | i + 1 <= j < |items| :: Matched(index', items[j]) == Matched(index, items[j])
  {
  }

  /** What the first loop leaves for the keyed second one: the kept children
      repeat no node and predate the pass, and the index records kept
      children only. */
  lemma PrunedIndex(list: seq<HostNode>, keys: set<Value>, w0: nat)
    requires FreshBelow(list, w0)
    ensures FreshBelow(Kept(list, keys), w0)
    ensures forall k | k in Indexed(list, keys) && Indexed(list, keys)[k].Some? ::
      Indexed(list, keys)[k].value in Kept(list, keys)
  {
    var l, index := Kept(list, keys), Indexed(list, keys);
    KeptMembers(list, keys);
    IndexedMembers(list, keys);
    KeptDistinct(list, keys);
    forall k | k in index && index[k].Some? ensures index[k].value in l {
      assert index[k].value in list && index[k].value.key in keys;
    }
  }

  /** Different keys of the index record different nodes. */
  lemma IndexedApart(list: seq<HostNode>, keys: set<Value>, a: Value, b: Value)
    requires DistinctIds(list)
    requires var index := Indexed(list, keys);
      a in index && b in index && a != b && index[a].Some? && index[b].Some?
    ensures Indexed(list, keys)[a].value.id != Indexed(list, keys)[b].value.id
  {
    IndexedMembers(list, keys);
  }

  /** Before turn `i` of the keyed second loop, when every child has its own
      key: the node recorded for the `i`-th child's key is none of the nodes
      placed for the children before it. */
  lemma KeyedTurn(id: PassId, list: seq<HostNode>, keys: set<Value>, items: seq<Value>, l: seq<HostNode>,
                  i: nat, w0: nat)
    requires FreshBelow(list, w0) && KeysDistinct(items) && i < |items| && i <= |l|
    requires forall k | 0 <= k < i :: PlacedAt(l[k], items[k], Matched(Indexed(list, keys), items[k]), id, w0)
    ensures var mi := Matched(Indexed(list, keys), items[i]);
      mi.Some? ==> mi.value.id < w0 && forall k | 0 <= k < i :: l[k].id != mi.value.id
  {
    var index0 := Indexed(list, keys);
    PrunedIndex(list, keys, w0);
    KeptMembers(list, keys);
    var mi := Matched(index0, items[i]);
    if mi.Some? {
      var ki := KeyOf(items[i]);
      assert ki in index0 && index0[ki] == mi;
      assert mi.value in Kept(list, keys);
      assert mi.value.id < w0;
      forall k | 0 <= k < i ensures l[k].id != mi.value.id {
        var mk := Matched(index0, items[k]);
        assert PlacedAt(l[k], items[k], mk, id, w0);
        if Reused(id, mk, items[k]) {
          var kk := KeyOf(items[k]);
          assert kk != ki;
          assert kk in index0 && index0[kk] == mk;
          IndexedApart(list, keys, kk, ki);
        } else {
          assert w0 <= l[k].id;
        }
      }
    }
  }

  /** The kept children repeat no node. */
  lemma {:induction false} KeptDistinct(list: seq<HostNode>, keys: set<Value>)
    requires DistinctIds(list)
    ensures DistinctIds(Kept(list, keys))
    decreases |list|
  {
    if list != [] {
      var init := list[..|list| - 1];
      var last := list[|list| - 1];
      assert forall a, b | 0 <= a < b < |init| :: init[a] == list[a] && init[b] == list[b];
      KeptDistinct(init, keys);
      KeptMembers(init, keys);
      if last.key in keys {
        var s := Kept(init, keys);
        forall x | x in s ensures x.id != last.id {
          var k :| 0 <= k < |init| && init[k] == x;
          assert list[k] == x;
        }
        DistinctSnoc(s, last);
      }
    }
  }

  lemma DistinctSnoc(s: seq<HostNode>, a: HostNode)
    requires DistinctIds(s) && forall x | x in s :: x.id != a.id
    ensures DistinctIds(s + [a])
  {
    var t := s + [a];
    forall i, j | 0 <= i < j < |t| ensures t[i].id != t[j].id {
      assert t[i] == s[i];
      if j < |s| {
        assert t[j] == s[j];
      }
    }
  }

  /** In a list without repeated nodes, one id names one node. */
  lemma SameId(list: seq<HostNode>, x: HostNode, y: HostNode)
    requires DistinctIds(list) && x in list && y in list && x.id == y.id
    ensures x == y
  {
    var i :| 0 <= i < |list| && list[i] == x;
    var j :| 0 <= j < |list| && list[j] == y;
    assert i == j;
  }

  /** The node the second loop of `diffChildren` diffs at position `i`: the
      one recorded for the child's key, moved to position `i`, or without a
      keyed index the node already there. */
  method Locate(l: seq<HostNode>, index: map<Value, Option<HostNode>>, i: nat, key: Value, keyed: bool)
      returns (l': seq<HostNode>, childNode: Option<HostNode>)
    ensures !keyed ==> l' == l && childNode == At(l, i)
    ensures keyed ==> childNode == if key in index then index[key] else None
    ensures keyed ==> forall x | x in l' :: x in l || Some(x) == childNode
    ensures keyed && childNode.None? ==> l' == l
    ensures DistinctIds(l) ==> DistinctIds(l')
    ensures keyed && childNode.Some? && i <= |l| && DistinctIds(l)
            && (forall k | 0 <= k < i :: l[k].id != childNode.value.id) ==>
      && i < |l'| && l'[i].id == childNode.value.id && l'[..i] == l[..i]
      && l' == l[..i] + [l'[i]] + Detach(l[i..], childNode.value.id)
  {
    l' := l;
    var indexNode := At(l, i);
    childNode := if !keyed then indexNode else if key in index then index[key] else None;
    if keyed && childNode.Some? {
      if indexNode.None? || childNode.value.id != indexNode.value.id {
        if i <= |l| && DistinctIds(l) && forall k | 0 <= k < i :: l[k].id != childNode.value.id {
          MoveTo(l, childNode.value, i);
        }
        if DistinctIds(l) {
          InsertDistinct(l, childNode.value, if indexNode.Some? then Some(indexNode.value.id) else None);
        }
        l' := InsertBefore(l', childNode.value, if indexNode.Some? then Some(indexNode.value.id) else None);
      } else if DistinctIds(l) {
        DetachHead(l, i);
        SplitAround(l, i);
      }
    }
  }

  /**
   * One turn of the second loop of `diffChildren`, for the child item at
   * position `i`: with a keyed index, move the node recorded for the
   * child's key to position `i` (and skip a child without a key); diff the
   * node; then insert the result if there was no node, or put it in the old
   * node's place if `diff` returned another node.
   */
  method Place(id: PassId, l: seq<HostNode>, index: map<Value, Option<HostNode>>, i: nat, child: Value,
               keyed: bool, svg: bool, schema: Schema, w: World, ghost kept: set<NodeId>, ghost w0: nat)
      returns (l': seq<HostNode>, index': map<Value, Option<HostNode>>, w': World)
    requires ChildItem(child) && Renderable(child)
    ensures w.next <= w'.next
    ensures index'.Keys == index.Keys && forall k | k in index && k != KeyOf(child) :: index'[k] == index[k]
    ensures keyed && Nullish(KeyOf(child)) ==>
      index' == index && w' == w && (KeyOf(child) !in index ==> l' == l)
    ensures !keyed && i <= |l| && FreshBelow(l, w.next) && !IsRaw(child) ==>
      && |l'| == (if i < |l| then |l| else i + 1)
      && (forall k | 0 <= k < |l'| && k != i :: l'[k] == l[k])
      && PlacedAt(l'[i], child, At(l, i), id, w.next)
      && FreshBelow(l', w'.next)
    ensures keyed && !Nullish(KeyOf(child)) && !IsRaw(child) && i <= |l| && FreshBelow(l, w.next)
            && (Matched(index, child).Some? ==>
                  Matched(index, child).value.id < w.next
                  && forall k | 0 <= k < i :: l[k].id != Matched(index, child).value.id) ==>
      && i < |l'| && l'[..i] == l[..i]
      && PlacedAt(l'[i], child, Matched(index, child), id, w.next)
      && FreshBelow(l', w'.next)
      && l' == l[..i] + [l'[i]] + Rest(l, i, Matched(index, child))
    ensures keyed && !IsRaw(child) && w0 <= w.next && (forall x | x in l :: x.id in kept || w0 <= x.id)
            && (forall k | k in index && index[k].Some? :: index[k].value.id in kept) ==>
      && (forall x | x in l' :: x.id in kept || w0 <= x.id)
      && (forall k | k in index' && index'[k].Some? :: index'[k].value.id in kept)
    decreases child, 3
  {
    index' := index;
    var key := KeyOf(child);
    var childNode;
    l', childNode := Locate(l, index, i, key, keyed);
    if keyed && Nullish(key) {
      return l', index', w;
    }
    ghost var moved := l';
    var next;
    next, w' := DiffChild(id, childNode, child, svg, schema, w);
    l' := Settle(l', i, childNode, next);
    if keyed && childNode.Some? && next.id == childNode.value.id {
      index' := index'[key := Some(next)];
    }
    if !keyed && i <= |l| && FreshBelow(l, w.next) && !IsRaw(child) {
      UnkeyedTurn(l, i, childNode, next, l', w.next, w'.next);
    }
    if keyed && !IsRaw(child) && i <= |l| && FreshBelow(l, w.next)
       && (childNode.Some? ==> childNode.value.id < w.next && forall k | 0 <= k < i :: l[k].id != childNode.value.id) {
      KeyedSettled(l, moved, i, childNode, next, l', w.next, w'.next);
    }
  }

  /** The list after an unkeyed turn: position `i` changed, or was appended. */
  lemma UnkeyedTurn(l: seq<HostNode>, i: nat, childNode: Option<HostNode>, next: HostNode, l': seq<HostNode>,
                    w0: nat, w1: nat)
    requires i <= |l| && FreshBelow(l, w0) && childNode == At(l, i) && w0 <= w1 && next.id < w1
    requires (childNode.Some? && next.id == childNode.value.id) || w0 <= next.id
    requires childNode.None? ==> l' == l[..i] + [next] + l[i..]
    requires childNode.Some? ==> l' == l[i := next]
    ensures |l'| == (if i < |l| then |l| else i + 1)
    ensures forall k | 0 <= k < |l'| && k != i :: l'[k] == l[k]
    ensures l'[i] == next && FreshBelow(l', w1)
  {
    if childNode.None? {
      assert l[..i] == l && l[i..] == [];
    } else {
      forall a, b | 0 <= a < b < |l'| ensures l'[a].id != l'[b].id {
        if a != i && b != i {
          assert l'[a] == l[a] && l'[b] == l[b];
        } else if a == i {
          assert l[b] in l;
        } else {
          assert l[a] in l;
        }
      }
    }
  }

  /** The list after a keyed turn: positions before `i` untouched, `next` at `i`. */
  lemma KeyedSettled(l: seq<HostNode>, moved: seq<HostNode>, i: nat, childNode: Option<HostNode>, next: HostNode,
                     l': seq<HostNode>, w0: nat, w1: nat)
    requires i <= |l| && FreshBelow(l, w0) && w0 <= w1 && next.id < w1
    requires (childNode.Some? && next.id == childNode.value.id) || w0 <= next.id
    requires childNode.None? ==> moved == l && l' == l[..i] + [next] + l[i..]
    requires childNode.Some? ==>
      && childNode.value.id < w0
      && i < |moved| && moved[i].id == childNode.value.id && moved[..i] == l[..i] && DistinctIds(moved)
      && (forall x | x in moved :: x in l || x == childNode.value)
      && moved == l[..i] + [moved[i]] + Detach(l[i..], childNode.value.id)
      && l' == moved[i := next]
    ensures i < |l'| && l'[..i] == l[..i] && l'[i] == next && FreshBelow(l', w1)
    ensures l' == l[..i] + [next] + Rest(l, i, childNode)
  {
    if childNode.None? {
      DistinctSplice(l, i, next);
      assert l'[..i] == l[..i];
    } else {
      ReplacedAt(l[..i], moved[i], Detach(l[i..], childNode.value.id), next);
      assert FreshBelow(moved, w0);
      assert l'[..i] == moved[..i];
      forall a, b | 0 <= a < b < |l'| ensures l'[a].id != l'[b].id {
        if a != i && b != i {
          assert l'[a] == moved[a] && l'[b] == moved[b];
        } else if a == i {
          assert moved[b] in moved;
        } else {
          assert moved[a] in moved;
        }
      }
    }
  }

  lemma ReplacedAt(pre: seq<HostNode>, prev: HostNode, rest: seq<HostNode>, n: HostNode)
    ensures (pre + [prev] + rest)[|pre| := n] == pre + [n] + rest
  {
  }

  /** After `diff`: insert its result when there was no node, put it in the
      old node's place when it is another node, and otherwise leave the node
      where it stands, showing its new state. */
  method Settle(l: seq<HostNode>, i: nat, childNode: Option<HostNode>, next: HostNode)
      returns (l': seq<HostNode>)
    ensures forall x | x in l' :: x in l || x == next
    ensures childNode.None? && i <= |l| && DistinctIds(l) && (forall x | x in l :: x.id != next.id) ==>
      l' == l[..i] + [next] + l[i..]
    ensures (&& childNode.Some? && i < |l| && childNode.value.id == l[i].id && DistinctIds(l)
             && (next.id == l[i].id || forall x | x in l :: x.id != next.id)) ==> l' == l[i := next]
  {
    if childNode.None? {
      if i <= |l| && DistinctIds(l) && forall x | x in l :: x.id != next.id {
        InsertFresh(l, next, i);
      }
      l' := InsertBefore(l, next, if i < |l| then Some(l[i].id) else None);
    } else if next.id != childNode.value.id {
      if i < |l| && childNode.value.id == l[i].id && DistinctIds(l) && forall x | x in l :: x.id != next.id {
        ReplaceAt(l, i, next);
      }
      l' := ReplaceChild(l, next, childNode.value.id);
    } else {
      l' := Reflect(l, next);
    }
  }

  /** `diff` on one child item: it always yields a node, the candidate node
      itself when `diff` keeps it and otherwise a new one. */
  method DiffChild(id: PassId, node: Option<HostNode>, v: Value, svg: bool, schema: Schema, w: World)
      returns (r: HostNode, w': World)
    requires ChildItem(v) && Renderable(v)
    ensures w.next <= w'.next
    ensures !IsRaw(v) ==> Reconciled(r, v, id)
    ensures Reused(id, node, v) ==> r.id == node.value.id
    ensures !Reused(id, node, v) && !IsRaw(v) ==> r.id == w.next < w'.next
    decreases v, 2
  {
    var n;
    n, w' := Diff(id, node, v, svg, schema, w);
    r := n.value;
  }
}

=== FILE: vdom.dfy ===
/**
 * The vnode factory: `h` and its child normaliser `flat` (src/render.js).
 */
module VDom {
  import opened Wrappers
  import opened Dom

  /** The non-array values of a nested child list, left to right. */
  function Leaves(children: seq<Value>): (r: seq<Value>)
    ensures forall v | v in r :: !v.Arr?
    decreases children
  {
    if children == [] then []
    else LeavesOf(children[0]) + Leaves(children[1..])
  }

  function LeavesOf(child: Value): (r: seq<Value>)
    ensures forall v | v in r :: !v.Arr?
    decreases child
  {
    if child.Arr? then Leaves(child.items) else [child]
  }

  /** A leaf as `flat` stores it: nothing renderable becomes "", and in
      sanitize mode so does a vnode. */
  function Blank(child: Value, sanitize: bool): Value {
    match child
    case Str(_) => child
    case Num(_) => child
    case V(_) => if sanitize then Str("") else child
    case _ => Str("")
  }

  /** The leaves that register their key in the keyed index. */
  predicate Registers(child: Value) {
    Truthy(child) && !Nullish(KeyOf(child))
  }

  function KeySet(leaves: seq<Value>): set<Value> {
    set l | l in leaves && Registers(l) :: KeyOf(l)
  }

  /** Sanitize mode: the concatenated text of the leaves, vnodes and other objects giving "". */
  function ConcatText(leaves: seq<Value>): string {
    if leaves == [] then "" else ToText(Blank(leaves[0], true)) + ConcatText(leaves[1..])
  }

  /** Outside sanitize mode every leaf is pushed blanked.  A helper: its
      ensures only spells out the comprehension position by position. */
  function BlankAll(leaves: seq<Value>): (r: seq<Value>)
    ensures |r| == |leaves|
    ensures forall i :: 0 <= i < |leaves| ==> r[i] == Blank(leaves[i], false)
  {
    seq(|leaves|, i requires 0 <= i < |leaves| => Blank(leaves[i], false))
  }

  /** The array `flat` builds: its items and its keyed index. */
  datatype FlatList = FlatList(items: seq<Value>, keyed: Option<set<Value>>)

  function KeysIn(k: Option<set<Value>>): set<Value> {
    if k.Some? then k.value else {}
  }

  /** What `flat(children, sanitize)` returns, stated over the leaves. */
  function Flatten(children: seq<Value>, sanitize: bool): FlatList {
    var ls := Leaves(children);
    FlatList(
      if !sanitize then BlankAll(ls)
      else if ls == [] then []
      else [Str(ConcatText(ls))],
      if KeySet(ls) == {} then None else Some(KeySet(ls)))
  }

  /** The accumulator shape sanitize mode keeps: at most one text entry. */
  predicate SanitizeShape(acc: FlatList) {
    |acc.items| <= 1 && forall v | v in acc.items :: v.Str?
  }

  /** `map[0] || ""`. */
  function FirstText(items: seq<Value>): string {
    if items != [] && items[0].Str? then items[0].s else ""
  }

  lemma {:induction false} LeavesAppend(a: seq<Value>, b: seq<Value>)
    ensures Leaves(a + b) == Leaves(a) + Leaves(b)
    decreases |a|
  {
    if a == [] {
      assert a + b == b;
    } else {
      assert (a + b)[0] == a[0];
      assert (a + b)[1..] == a[1..] + b;
      LeavesAppend(a[1..], b);
    }
  }

  lemma {:induction false} ConcatTextAppend(a: seq<Value>, b: seq<Value>)
    ensures ConcatText(a + b) == ConcatText(a) + ConcatText(b)
    decreases |a|
  {
    if a == [] {
      assert a + b == b;
    } else {
      assert (a + b)[0] == a[0];
      assert (a + b)[1..] == a[1..] + b;
      ConcatTextAppend(a[1..], b);
    }
  }

  lemma KeySetAppend(a: seq<Value>, b: seq<Value>)
    ensures KeySet(a + b) == KeySet(a) + KeySet(b)
  {
  }

  lemma LeavesPrefix(children: seq<Value>, i: nat)
    requires i < |children|
    ensures Leaves(children[..i + 1]) == Leaves(children[..i]) + LeavesOf(children[i])
  {
    assert children[..i + 1] == children[..i] + [children[i]];
    LeavesAppend(children[..i], [children[i]]);
    assert Leaves([children[i]]) == LeavesOf(children[i]) + Leaves([]);
  }

  /** The accumulator after `flat` has appended the given leaves to it. */
  function Appended(acc: FlatList, leaves: seq<Value>, sanitize: bool): FlatList {
    FlatList(
      if !sanitize then acc.items + BlankAll(leaves)
      else if acc.items == [] && leaves == [] then []
      else [Str(FirstText(acc.items) + ConcatText(leaves))],
      if acc.keyed.None? && KeySet(leaves) == {} then None
      else Some(KeysIn(acc.keyed) + KeySet(leaves)))
  }

  lemma AppendedNothing(acc: FlatList, sanitize: bool)
    requires sanitize ==> SanitizeShape(acc)
    ensures Appended(acc, [], sanitize) == acc
  {
    assert BlankAll([]) == [];
    assert KeySet([]) == {};
    assert ConcatText([]) == "";
    if sanitize && acc.items != [] {
      var t := acc.items[0].s;
      assert t + "" == t;
      assert acc.items == [Str(t)];
    } else if !sanitize {
      assert acc.items + [] == acc.items;
    }
    assert Appended(acc, [], sanitize).items == acc.items;
    if acc.keyed.Some? {
      assert KeysIn(acc.keyed) + {} == acc.keyed.value;
    }
    assert Appended(acc, [], sanitize).keyed == acc.keyed;
  }

  lemma KeyedTwice(k: Option<set<Value>>, a: seq<Value>, b: seq<Value>)
    ensures var k1 := if k.None? && KeySet(a) == {} then None else Some(KeysIn(k) + KeySet(a));
      (if k1.None? && KeySet(b) == {} then None else Some(KeysIn(k1) + KeySet(b)))
      == (if k.None? && KeySet(a + b) == {} then None else Some(KeysIn(k) + KeySet(a + b)))
  {
    KeySetAppend(a, b);
    var k1 := if k.None? && KeySet(a) == {} then None else Some(KeysIn(k) + KeySet(a));
    assert KeysIn(k1) == KeysIn(k) + KeySet(a);
    if k1.None? && KeySet(b) == {} {
      assert k.None? && KeySet(a + b) == {};
    } else {
      assert !(k.None? && KeySet(a + b) == {});
      assert KeysIn(k1) + KeySet(b) == KeysIn(k) + KeySet(a + b);
    }
  }

  lemma BlankAllAppend(a: seq<Value>, b: seq<Value>)
    ensures BlankAll(a) + BlankAll(b) == BlankAll(a + b)
  {
    var l, r := BlankAll(a) + BlankAll(b), BlankAll(a + b);
    assert |l| == |r|;
    forall i | 0 <= i < |r| ensures l[i] == r[i] {
      if i < |a| {
        assert (a + b)[i] == a[i];
      } else {
        assert (a + b)[i] == b[i - |a|];
      }
    }
  }

  lemma {:induction false} TextTwice(items: seq<Value>, a: seq<Value>, b: seq<Value>)
    requires |items| <= 1 && forall v | v in items :: v.Str?
    ensures Appended(Appended(FlatList(items, None), a, true), b, true).items
         == Appended(FlatList(items, None), a + b, true).items
  {
    var f, ca, cb := FirstText(items), ConcatText(a), ConcatText(b);
    ConcatTextAppend(a, b);
    var mid := Appended(FlatList(items, None), a, true);
    if items == [] && a == [] {
      assert a + b == b;
      assert mid.items == [] && f == "";
    } else {
      assert mid.items == [Str(f + ca)];
      assert FirstText(mid.items) == f + ca;
      assert (f + ca) + cb == f + (ca + cb);
    }
  }

  lemma ItemsTwice(items: seq<Value>, a: seq<Value>, b: seq<Value>, sanitize: bool)
    requires sanitize ==> |items| <= 1 && forall v | v in items :: v.Str?
    ensures Appended(Appended(FlatList(items, None), a, sanitize), b, sanitize).items
         == Appended(FlatList(items, None), a + b, sanitize).items
  {
    if sanitize {
      TextTwice(items, a, b);
    } else {
      BlankAllAppend(a, b);
    }
  }

  lemma AppendLeaf(acc: FlatList, child: Value, sanitize: bool)
    requires !child.Arr?
    ensures Appended(acc, [child], sanitize).items ==
      if sanitize then [Str(FirstText(acc.items) + ToText(Blank(child, true)))]
      else acc.items + [Blank(child, false)]
    ensures Appended(acc, [child], sanitize).keyed ==
      if Registers(child) then Some(KeysIn(acc.keyed) + {KeyOf(child)}) else acc.keyed
  {
    assert [child][1..] == [];
    var t := ToText(Blank(child, true));
    assert ConcatText([child]) == t + ConcatText([]);
    assert t + "" == t;
    assert KeySet([child]) == if Registers(child) then {KeyOf(child)} else {};
    assert BlankAll([child]) == [Blank(child, false)];
    if acc.keyed.Some? {
      assert KeysIn(acc.keyed) + {} == acc.keyed.value;
    }
  }

  lemma AppendedTwice(acc: FlatList, a: seq<Value>, b: seq<Value>, sanitize: bool)
    requires sanitize ==> SanitizeShape(acc)
    ensures Appended(Appended(acc, a, sanitize), b, sanitize) == Appended(acc, a + b, sanitize)
  {
    ItemsTwice(acc.items, a, b, sanitize);
    KeyedTwice(acc.keyed, a, b);
  }

  /**
   * `flat(children, sanitize, map)`: walks the children left to right,
   * recursing into arrays with the same accumulator, registering keys, and
   * either pushing each blanked leaf or appending its text to entry 0.
   */
  method FlatInto(children: seq<Value>, sanitize: bool, acc: FlatList) returns (r: FlatList)
    requires sanitize ==> SanitizeShape(acc)
    ensures sanitize ==> SanitizeShape(r)
    ensures r == Appended(acc, Leaves(children), sanitize)
    decreases children
  {
    r := acc;
    var i := 0;
    assert children[..0] == [];
    AppendedNothing(acc, sanitize);
    while i < |children|
      invariant 0 <= i <= |children|
      invariant sanitize ==> SanitizeShape(r)
      invariant r == Appended(acc, Leaves(children[..i]), sanitize)
    {
      var child := children[i];
      LeavesPrefix(children, i);
      AppendedTwice(acc, Leaves(children[..i]), LeavesOf(child), sanitize);
      if child.Arr? {
        r := FlatInto(child.items, sanitize, r);
      } else {
        r := PushLeaf(r, child, sanitize);
      }
      i := i + 1;
    }
    assert children[..i] == children;
  }

  /** One non-array child: register its key, then push it blanked, or append its text to entry 0. */
  method PushLeaf(acc: FlatList, child: Value, sanitize: bool) returns (r: FlatList)
    requires !child.Arr? && (sanitize ==> SanitizeShape(acc))
    ensures sanitize ==> SanitizeShape(r)
    ensures r == Appended(acc, LeavesOf(child), sanitize)
  {
    AppendLeaf(acc, child, sanitize);
    assert LeavesOf(child) == [child];
    var b := Blank(child, sanitize);
    r := acc;
    if Registers(child) {
      r := r.(keyed := Some(KeysIn(r.keyed) + {KeyOf(child)}));
    }
    if sanitize {
      r := r.(items := [Str(FirstText(r.items) + ToText(b))]);
    } else {
      r := r.(items := r.items + [b]);
    }
  }

  /** `flat(children, sanitize)` with a fresh accumulator. */
  method Flat(children: seq<Value>, sanitize: bool) returns (r: FlatList)
    ensures r == Flatten(children, sanitize)
  {
    r := FlatInto(children, sanitize, FlatList([], None));
    assert BlankAll(Leaves(children)) == [] + BlankAll(Leaves(children));
    assert KeysIn(None) + KeySet(Leaves(children)) == KeySet(Leaves(children));
    assert FirstText([]) == "";
    assert "" + ConcatText(Leaves(children)) == ConcatText(Leaves(children));
  }

  /** Every entry of a non-sanitized flat list is something `diff` can render:
      text, a number or a stamped vnode; nothing was dropped. */
  lemma FlattenRenderable(children: seq<Value>)
    ensures |Flatten(children, false).items| == |Leaves(children)|
    ensures forall v | v in Flatten(children, false).items :: ChildValue(v)
  {
  }

  /** Order and one-entry-per-leaf: entry k is leaf k, blanked. */
  lemma {:induction false} FlattenOrder(a: seq<Value>, b: seq<Value>)
    ensures Flatten(a + b, false).items == Flatten(a, false).items + Flatten(b, false).items
  {
    LeavesAppend(a, b);
  }

  /** Sanitize mode yields one text entry, the concatenation of every leaf's text. */
  lemma {:induction false} FlattenSanitizeConcat(a: seq<Value>, b: seq<Value>)
    requires Leaves(a) != [] && Leaves(b) != []
    ensures Flatten(a + b, true).items ==
      [Str(Flatten(a, true).items[0].s + Flatten(b, true).items[0].s)]
  {
    LeavesAppend(a, b);
    ConcatTextAppend(Leaves(a), Leaves(b));
  }

  /** In sanitize mode no vnode survives: a leaf that is a vnode adds no text. */
  lemma {:induction false} SanitizeDropsVNodes(a: seq<Value>, vn: VNode)
    ensures ConcatText(Leaves(a + [V(vn)])) == ConcatText(Leaves(a))
  {
    LeavesAppend(a, [V(vn)]);
    assert [V(vn)][1..] == [];
    assert Leaves([V(vn)]) == LeavesOf(V(vn)) + Leaves([]);
    assert [V(vn)] + [] == [V(vn)];
    ConcatTextAppend(Leaves(a), [V(vn)]);
    assert ConcatText([V(vn)]) == ToText(Str("")) + ConcatText([]);
    assert "" + "" == "";
    assert ConcatText(Leaves(a)) + "" == ConcatText(Leaves(a));
  }

  /** A child registers its key iff it is a non-array truthy leaf whose key is
      not null; duplicates collapse to one index entry. */
  lemma KeyRegistered(children: seq<Value>, k: Value)
    ensures k in KeysIn(Flatten(children, false).keyed) <==>
      exists l :: l in Leaves(children) && Registers(l) && KeyOf(l) == k
  {
  }

  /** The child list `h` flattens: `props.children` when truthy, otherwise the rest arguments. */
  function ChildSource(props: Props, rest: seq<Value>): seq<Value> {
    var pc := Lookup(props.entries, "children");
    if !Truthy(pc) then rest
    else match pc
      case Arr(_, items) => items
      case Str(s) => seq(|s|, i requires 0 <= i < |s| => Str([s[i]]))
      case _ => []
  }

  /**
   * `h(type, p, ...children)`: `vref` and `cref` are the identities of the
   * vnode object and of the fresh array `flat` fills.
   */
  function H(vtype: VType, p: Option<Props>, rest: seq<Value>, vref: Ref, cref: Ref): (v: VNode)
    requires cref != EmptyRef
    ensures v.ref == vref && v.vtype == vtype
    ensures v.props == p.GetOr(EmptyProps)
    ensures v.key == Lookup(v.props.entries, "key")
    ensures v.shadow == Lookup(v.props.entries, "shadowDom")
    ensures v.children.ref == EmptyRef <==> v.children.items == []
    ensures v.children.items == Flatten(ChildSource(v.props, rest), vtype == Tag("style")).items
    ensures v.children.items != [] ==>
      v.children.keyed == Flatten(ChildSource(v.props, rest), vtype == Tag("style")).keyed
  {
    var props := p.GetOr(EmptyProps);
    var f := Flatten(ChildSource(props, rest), vtype == Tag("style"));
    VNode(vref, vtype, props,
          if f.items == [] then EmptyChildren else Children(cref, f.items, f.keyed),
          Lookup(props.entries, "key"), Lookup(props.entries, "shadowDom"))
  }

  /** A truthy `props.children` wins: the rest arguments are ignored. */
  lemma HPrefersPropsChildren(vtype: VType, p: Props, a: seq<Value>, b: seq<Value>, vref: Ref, cref: Ref)
    requires cref != EmptyRef
    requires Truthy(Lookup(p.entries, "children"))
    ensures H(vtype, Some(p), a, vref, cref) == H(vtype, Some(p), b, vref, cref)
  {
  }

  /** An empty flattened list is replaced by the one shared EMPTY_CHILDREN array. */
  lemma HEmptyShared(vtype: VType, p: Option<Props>, rest: seq<Value>, vref: Ref, cref: Ref)
    requires cref != EmptyRef
    requires Leaves(ChildSource(p.GetOr(EmptyProps), rest)) == []
    ensures H(vtype, p, rest, vref, cref).children == EmptyChildren
  {
  }

  /** A vnode built by `h` outside sanitize mode lists every child leaf, in order,
      as a renderable child. */
  lemma {:induction false} HChildren(vtype: VType, p: Option<Props>, rest: seq<Value>, vref: Ref, cref: Ref)
    requires cref != EmptyRef && vtype != Tag("style")
    ensures var v := H(vtype, p, rest, vref, cref);
      && v.children.items == BlankAll(Leaves(ChildSource(v.props, rest)))
      && forall c | c in v.children.items :: ChildValue(c)
  {
    FlattenRenderable(ChildSource(p.GetOr(EmptyProps), rest));
  }

  /** A `style` vnode built by `h` has at most one child, the text of all its
      leaves run together, and no vnode among its children. */
  lemma HStyleText(p: Option<Props>, rest: seq<Value>, vref: Ref, cref: Ref)
    requires cref != EmptyRef
    ensures var v := H(Tag("style"), p, rest, vref, cref);
      var ls := Leaves(ChildSource(v.props, rest));
      && v.children.items == (if ls == [] then [] else [Str(ConcatText(ls))])
      && forall c | c in v.children.items :: !c.V?
  {
  }

  /** The keyed index of a vnode built by `h` holds exactly the keys of the
      truthy leaves that carry a non-null key, in `style` mode too. */
  lemma HKeyed(vtype: VType, p: Option<Props>, rest: seq<Value>, vref: Ref, cref: Ref, k: Value)
    requires cref != EmptyRef
    ensures var v := H(vtype, p, rest, vref, cref);
      v.children.items != [] ==>
        (k in KeysIn(v.children.keyed) <==>
           exists l :: l in Leaves(ChildSource(v.props, rest)) && Registers(l) && KeyOf(l) == k)
  {
  }

  /** Outside `style` mode, when only vnodes register keys, every key of the
      index is the key of one of the children. */
  lemma HKeysDeclared(vtype: VType, p: Option<Props>, rest: seq<Value>, vref: Ref, cref: Ref)
    requires cref != EmptyRef && vtype != Tag("style")
    requires forall l | l in Leaves(ChildSource(p.GetOr(EmptyProps), rest)) && Registers(l) :: l.V?
    ensures var v := H(vtype, p, rest, vref, cref);
      KeysIn(v.children.keyed) <= KeysOf(v.children.items)
  {
    var v := H(vtype, p, rest, vref, cref);
    var ls := Leaves(ChildSource(v.props, rest));
    forall k | k in KeysIn(v.children.keyed) ensures k in KeysOf(v.children.items) {
      var l :| l in ls && Registers(l) && KeyOf(l) == k;
      var j :| 0 <= j < |ls| && ls[j] == l;
      assert v.children.items[j] == l;
    }
  }
}

=== FILE: wrappers.dfy ===
/** The optional value used wherever the source reads `undefined`/`null` or a missing entry. */
module Wrappers {
  datatype Option<+T> = None | Some(value: T) {
    function GetOr(default: T): T {
      match this
      case Some(v) => v
      case None => default
    }
  }

  /** The element at position `i`, when there is one (`a[i]` read past the
      end gives `undefined`).  A helper whose ensures only unfold its
      definition. */
  function At<T>(s: seq<T>, i: nat): (r: Option<T>)
    ensures r.Some? <==> i < |s|
    ensures r.Some? ==> r.value == s[i]
  {
    if i < |s| then Some(s[i]) else None
  }
}
